=== FILE: README.md ===
# Amsterdam listing scrapers: a Dafny model of the run pipeline

The repository consists of five near-duplicate scripts. Each one loads a
property-search result page (Pararius, VBO, or both), turns each listing on
it into a record, and looks the records up by URL in the "Listings"
worksheet of a Google spreadsheet. If any record is new, the script
rewrites the sheet as the old records followed by the new ones. Most
scripts then email a notice.

This project models that pipeline as pure functions.

- **Listings** (`listing.dfy`): the canonical record and the run faults.
  An optional field is `Missing` (no key), `Null` (the key holds `None`)
  or `Text`.
- **Sources** (`sources.dfy`): one record builder per script variant. A
  page item is reduced to the optional strings a selector would find.
  The builders include the VBO "Woonoppervlakte" size rule. The
  `enumerate` loop is `BuildAll`.
- **Merge** (`merge.dfy`): the combined script's `{**pararius, **vbo}`
  over two dicts that both number their records from 1, exactly as
  written. It also holds the concatenation that was evidently intended.
- **Store** (`store.dfy`): the sheet as header plus records, and the
  column order of the candidate frame. It also models
  `pd.concat(...).fillna("")`: old records first, the header extended at
  its end, every missing cell `""`.
- **Dedup** (`dedup.dfy`): the `~new_df["URL"].isin(existing_df["URL"])`
  mask as an order-keeping filter. This includes the `KeyError` raised
  when either frame has no `URL` column. A loop implementation is proved
  equal to it.
- **Notify** (`notify.dfy`): the recipient list, the subject, the body
  with its count and sheet link, and one message per recipient.
- **Pipeline** (`pipeline.dfy`): one run per script, as a function from
  the sheet's state and the browser's findings to an `Outcome`. The
  outcome lists the sheet writes and the messages sent.
- **Text** (`text.dfy`): the Python string operations the scripts use.
  These are `strip`, `in`, `split` and `str(int)`, with `join` as the
  inverse used to state the split round-trip.

Behaviours of the code worth stating plainly:

- A missing required element raises and ends the whole run; no item is
  skipped. The elements are an absent title, link, `href`, price, street
  or energy-label element, and in `pararius_selenium.py` an absent
  surface-area element.
- A failed readiness wait ends the whole run, including in the combined
  script.
- The combined script merges its two pages by index, not by
  concatenation, so it loses records (see Findings).
- The sheet being unreachable is not the only run-level abort. An empty
  sheet, or a page with no items, leaves a frame without a `URL` column,
  and the lookup raises.
- The Selenium scripts read the clock once per record. Only the pyppeteer
  scripts share one timestamp per run.

## Model

| member | source | states |
|---|---|---|
| Listings.Columns | combined_pyppeteer.py:176-183 | a record's keys in insertion order: only the six known keys, no key twice; address and URL first, price and timestamp last; size present exactly when the record sets it and then right after URL; energy_label present exactly when set and then right before price |
| Listings.Cells | vbo_pyppeteer.py:107-114 | the dict a scraper builds: its keys are exactly the record's columns, and each key holds its field (a size of `None` included) |
| Text.Strip | combined_pyppeteer.py:166-168 | `str.strip()`: the result is a window of the input whose ends are not whitespace, and everything cut off is whitespace |
| Text.StripUnique | combined_pyppeteer.py:166-168 | the whitespace-trimmed window with non-whitespace ends is unique: any such window of the input is what `str.strip()` returns |
| Text.Contains | combined_pyppeteer.py:171 | `sub in s` holds exactly when `sub` occurs at some position of `s` |
| Text.IndexOf | combined_pyppeteer.py:172 | the first position of a character, or none exactly when it does not occur |
| Text.Split | combined_pyppeteer.py:172 | `s.split(sep)` yields at least one piece and no piece contains the separator |
| Text.JoinSplit | combined_pyppeteer.py:36 | joining the split pieces with the separator gives back the input |
| Text.SplitJoin | combined_pyppeteer.py:36 | splitting a join of separator-free pieces gives back the pieces |
| Text.SplitHasMoreThanOnePiece | combined_pyppeteer.py:172 | `split(sep)` gives a second piece exactly when the separator occurs, so `[1]` raises exactly on separator-free text |
| Text.SecondPiece | combined_pyppeteer.py:172 | the second piece is the text strictly between the first separator and the next one, or the end of the string |
| Text.NatToString | combined_pyppeteer.py:212 | the decimal rendering of a count is all digits with no leading zero |
| Text.NatToStringRoundTrip | combined_pyppeteer.py:212 | reading the decimal rendering back gives the count |
| Text.LeadingDigits | combined_pyppeteer.py:212 | the longest digit prefix of a string |
| Text.LeadingDigitsOf | combined_pyppeteer.py:212 | digits followed by a non-digit are exactly the leading digits |
| Sources.ParariusWithSize | combined_pyppeteer.py:133-157 | the record is built exactly when title, link and price are present, else `MissingElement`; the URL is the Pararius site prefix followed by the href; address and price are the stripped title and price texts; the size is the stripped surface-area text, or "N/A" when that element is absent |
| Sources.ParariusPrefixed | pythonanywhere.py:96-116 | built exactly when title, link and price are present; the URL is the prefix followed by the href; address and price are the stripped title and price texts; the record has exactly the address, URL, price and timestamp keys |
| Sources.ParariusDriverWithSize | pararius_selenium.py:84-108 | built exactly when title, link, price and surface area are all present; the URL is the driver's href unchanged; address, price and size are the stripped element texts |
| Sources.ParariusDriver | main.py:75-94 | built exactly when title, link and price are present; the URL is the href unchanged; address and price are the stripped element texts; exactly four keys |
| Sources.FirstSizeLine | combined_pyppeteer.py:170-173 | the index of the first feature line containing "Woonoppervlakte"; none exactly when no line contains it; no earlier line contains it |
| Sources.VboSize | combined_pyppeteer.py:169-173 | `None` exactly when no line matches; `IndexError` exactly when the first matching line has no colon; otherwise the stripped text between the first colon and the next colon (or the end) of that line |
| Sources.VboRecord | vbo_pyppeteer.py:93-114 | built exactly when href, street, price and energy label are present and the size rule does not raise; a missing element fails with `MissingElement` and takes precedence over the size fault; the URL is the href unchanged; address, price and energy label are the stripped street, price and label texts; the size is the size rule's value; all six keys are present |
| Sources.BuildAll | vbo_pyppeteer.py:93 | the `enumerate(..., start=1)` loop succeeds exactly when every item builds; record k is item k's, built with index k+1; on failure the fault is that of the first failing item |
| Sources.CombinedParariusRecords | combined_pyppeteer.py:133-157 | the Pararius loop of the combined script builds exactly when every item does, record k is item k's record with the run stamp, and a failure is the first failing item's fault |
| Sources.VboRecords | vbo_pyppeteer.py:93-114 | the VBO loop builds exactly when every item does, record k is item k's record with the run stamp, and a failure is the first failing item's fault |
| Sources.PrefixedParariusRecords | pythonanywhere.py:96-116 | the loop builds exactly when every item does, record k is item k's prefixed record, and a failure is the first failing item's fault |
| Sources.DriverRecordsWithSize | pararius_selenium.py:84-108 | the loop builds exactly when every item does, record k is item k's record stamped with the time read for index k+1, and a failure is the first failing item's fault |
| Sources.DriverRecords | main.py:75-94 | the loop builds exactly when every item does, record k is item k's record stamped with the time read for index k+1, and a failure is the first failing item's fault |
| Sources.CombinedParariusShape | combined_pyppeteer.py:133-157 | every Pararius record of a run has the run timestamp, the prefixed URL of its own item, and a size |
| Sources.OneBrokenItemAbortsPage | combined_pyppeteer.py:146-148 | one item without a price fails the whole page, whatever the other items hold |
| Sources.VboRecordsShape | vbo_pyppeteer.py:93-114 | every VBO record is in item order, has its item's href as URL and an energy label, and carries the run timestamp |
| Sources.PrefixedParariusShape | pythonanywhere.py:96-116 | every record has exactly four keys, the prefixed URL of its item, and the shared run timestamp |
| Sources.DriverRecordsWithSizeShape | pararius_selenium.py:84-108 | the page builds exactly when every item has all four elements; record k has its item's href and the time read for index k+1 |
| Sources.DriverRecordsShape | main.py:75-94 | record k has exactly four keys, its item's href, and the time read for index k+1 |
| Merge.Enumerate | combined_pyppeteer.py:151 | records stored under keys 1..n, record k under key k |
| Merge.Unpack | combined_pyppeteer.py:186 | `{**a, **b}`: the keys of either dict; a key of `b` holds `b`'s value, any other key holds `a`'s |
| Merge.InKeyOrder | combined_pyppeteer.py:187 | the frame's rows are the dict's values in key order 1..n |
| Merge.MergeByIndex | combined_pyppeteer.py:186 | the merged candidates are the VBO page followed only by the Pararius records past the VBO page's length |
| Merge.MergeByIndexInvents | combined_pyppeteer.py:186 | every merged record comes from one of the two pages |
| Merge.IndexMergeLossless | combined_pyppeteer.py:186 | the merge keeps as many records as both pages hold exactly when one page is empty |
| Merge.ShadowedParariusDropped | combined_pyppeteer.py:186 | a Pararius record at a position the VBO page also fills does not reach the check, unless a surviving record has its URL |
| Merge.IndexMergeLosesOnePage | combined_pyppeteer.py:186 | one Pararius and one VBO listing merge to the VBO listing alone |
| Merge.MergeConcat | combined_pyppeteer.py:186 | the intended merge: the Pararius page followed by the whole VBO page |
| Merge.ConcatKeepsEverySource | combined_pyppeteer.py:186 | the intended merge loses and invents nothing: as a multiset it is the sum of the two pages |
| Merge.MergesAgreeOnlyWithOnePage | combined_pyppeteer.py:186 | the written and the intended merge agree exactly when one page is empty |
| Store.OrderedUnion | combined_pyppeteer.py:200-202 | `concat` column order: the first frame's columns unchanged as a prefix, then only columns it lacks, each a column of the second frame, ordered by where the second frame first has them; membership is the union; no column twice |
| Store.ColumnsFrom | combined_pyppeteer.py:187 | the column order accumulated over records: keys so far as a prefix, every key of some record, no key twice, and exactly the ordered union of the keys so far with all records' keys in record order |
| Store.FrameColumns | combined_pyppeteer.py:187 | `from_dict(orient="index")` columns: exactly the keys some record has, each once, the first record's keys first, and every key placed by where it first appears in the records' keys taken record after record |
| Store.UnionOfConcat | combined_pyppeteer.py:187 | adding one record's keys and then the next ones gives the same columns in the same order as adding all of them at once |
| Store.UnionOfDistinctWithEmpty | combined_pyppeteer.py:187 | adding a duplicate-free key list to no columns keeps it as it is |
| Store.FrameHasUrlIffCandidates | vbo_pyppeteer.py:117 | the candidate frame has a URL column exactly when some record was built |
| Store.UrlColumn | vbo_pyppeteer.py:125 | the existing URLs are exactly the URL cells of the sheet's records |
| Store.HasUrlColumn | vbo_pyppeteer.py:119-125 | the existing frame has a `URL` column exactly when the sheet has a record and its header names it; on a sheet whose records are keyed by the header, exactly when some record holds a URL |
| Store.AppendIsWellFormed | combined_pyppeteer.py:199-209 | the written table has every record keyed by exactly the written header, whatever table the append started from |
| Store.WellFormedUrls | vbo_pyppeteer.py:119-125 | on a sheet whose records are keyed by its header, a header naming `URL` means every record holds a URL, and the existing URLs are exactly those cells |
| Store.Append | combined_pyppeteer.py:199-209 | the written table: the old header as a prefix of the new one, which is the union of both column lists with no column twice, the added columns holding no old column and following the order the frame's columns have; old records first, each keeping its cells, "" in the new columns; then the new records in order, each filled to the header |
| Store.KeptRow | vbo_pyppeteer.py:150-155 | an old record under the new header keeps every cell it had and holds "" elsewhere |
| Store.FilledRow | vbo_pyppeteer.py:150-155 | a new record under the new header holds its text where it has one and "" where it lacks the key or holds `None` |
| Store.FilledRowKeys | vbo_pyppeteer.py:150-160 | a filled new row holds its listing's URL and timestamp |
| Store.AppendedRowsFrom | vbo_pyppeteer.py:150-160 | the row appended for the j-th new listing holds that listing's URL and timestamp |
| Store.AppendKeepsUrls | combined_pyppeteer.py:199-209 | after the write the sheet has a URL column; it still holds every URL it held; and it holds every new listing's URL |
| Store.AppendReadBack | combined_pyppeteer.py:199-209 | reading back a written new record gives its URL; its size and energy-label cells are the text, or "" when the field is absent or `None` |
| Store.AppendAvoidsUrl | combined_pyppeteer.py:199-209 | appending listings none of which has a given URL adds no row holding it |
| Store.AppendStamped | combined_pyppeteer.py:199-209 | appending listings that share one timestamp adds only rows holding it |
| Store.FilledOptionalCells | vbo_pyppeteer.py:150-155 | a filled new row's size and energy-label cells hold the text, or "" when the field is absent or `None` |
| Dedup.KeepNew | combined_pyppeteer.py:194-196 | a candidate is kept exactly when its URL is not among the sheet's; the result is empty exactly when every candidate's URL is known |
| Dedup.KeepNewCounts | combined_pyppeteer.py:194-196 | a kept candidate is kept as many times as it occurs; one with a known URL is not kept at all |
| Dedup.KeepNewIsSubsequence | combined_pyppeteer.py:194-196 | the kept candidates are a subsequence of the candidates |
| Dedup.KeepNewSnoc | pythonanywhere.py:126-128 | filtering one more candidate appends it exactly when its URL is new |
| Dedup.KeptStamped | combined_pyppeteer.py:194-196 | when all candidates share a timestamp, so do the kept ones |
| Dedup.KeptAvoidUrl | combined_pyppeteer.py:194-196 | a URL no candidate has is in no kept candidate |
| Dedup.Diff | vbo_pyppeteer.py:117-126 | `KeyError` exactly when there are no candidates or the sheet has no URL column; otherwise at most as many new listings as candidates |
| Dedup.DiffIsUrlSetDifference | vbo_pyppeteer.py:124-126 | a candidate is new exactly when no record of the sheet carries its URL; kept with its multiplicity; candidate order kept |
| Dedup.DuplicateCandidatesBothKept | pararius_selenium.py:118-120 | two candidates with the same unknown URL are both kept |
| Dedup.Dedup | main.py:104-106 | collecting the sheet's URLs once, then filtering the candidates in a loop, gives the same result as the mask |
| Dedup.CollectUrls | main.py:100-106 | one pass over the sheet's records collects exactly its URL cells |
| Notify.Recipients | combined_pyppeteer.py:36 | the configured list is split at commas; no recipient contains a comma |
| Notify.RecipientsRoundTrip | combined_pyppeteer.py:36 | the recipients joined with commas give the configured value back |
| Notify.Mail | combined_pyppeteer.py:112-114 | one message per recipient, in list order, all with the same subject and body |
| Notify.ReportedCount | combined_pyppeteer.py:212 | a count is read only from a body starting with "Added " |
| Notify.Body | combined_pyppeteer.py:211-212 | the body starts with "Added " and ends with the sheet link; that it reports the count and links the sheet is stated by `BodyReportsCount` and `BodyLinksSheet` |
| Notify.BodyReportsCount | combined_pyppeteer.py:212 | the body reports exactly the number of listings added |
| Notify.BodyLinksSheet | combined_pyppeteer.py:212 | the body contains the link to the spreadsheet |
| Notify.BodyDeterminesCount | combined_pyppeteer.py:212 | two equal bodies report the same count |
| Pipeline.OpenSheet | combined_pyppeteer.py:49-56 | a missing spreadsheet and a missing worksheet each give their own fault; otherwise the sheet |
| Pipeline.Notification | vbo_pyppeteer.py:163-167 | silent scripts send nothing; the others send one message per recipient |
| Pipeline.Publish | combined_pyppeteer.py:194-220 | aborts exactly when there are no candidates or the sheet lacks a URL column, with no effects; at most one write, made exactly when some listing is new; no message without a write; one message per recipient after a write |
| Pipeline.Run | main.py:35-42 | an unopenable sheet ends the run before anything else; then a fault while gathering candidates; otherwise the run is `Publish` of the candidates against the snapshot, so it writes exactly when some candidate's URL is new; an abort writes and sends nothing; with recipients every write is followed by one message each |
| Pipeline.PublishWrites | combined_pyppeteer.py:194-209 | the written table is the sheet with the new candidates appended under the candidate frame's columns, which include URL and timestamp |
| Pipeline.PublishedTable | combined_pyppeteer.py:194-209 | the written table is the sheet with exactly the new candidates appended in candidate order, and the status reports their number |
| Pipeline.NewRowsComeFromCandidates | combined_pyppeteer.py:194-209 | the row added for the j-th new listing carries its URL and timestamp |
| Pipeline.NewRowsAvoidUrl | combined_pyppeteer.py:194-209 | a URL no candidate has appears in no added row |
| Pipeline.NewRowsStamped | combined_pyppeteer.py:194-209 | if all candidates share one timestamp, so do all added rows |
| Pipeline.PublishNotifies | combined_pyppeteer.py:199-220 | after a write each recipient gets one message, in order, under the fixed subject, reporting the number added and linking the sheet |
| Pipeline.RerunAddsNothing | combined_pyppeteer.py:194-209 | checking the same candidates against the table just written finds nothing new: no write, no message |
| Pipeline.ChangedPriceIsNotNew | vbo_pyppeteer.py:124-173 | a known URL at a new price is not new; the unknown listing is the one row added; the message reports 1 |
| Pipeline.CombinedCandidates | combined_pyppeteer.py:119-187 | a VBO wait timeout ends the run; a Pararius fault comes before any VBO fault; a VBO fault after a built Pararius page is returned as is; when both pages build the candidates are their index merge |
| Pipeline.RunCombined | combined_pyppeteer.py:119-220 | sheet faults, then the VBO readiness fault, then a Pararius fault, then a VBO fault end the run with no effects; with both pages built it writes exactly when the index merge holds a URL new to the sheet; every write is followed by one message per configured recipient |
| Pipeline.CombinedNeverWritesShadowed | combined_pyppeteer.py:186-209 | a Pararius listing shadowed by the VBO page is never written, unless the sheet had its URL or a surviving record shares it |
| Pipeline.CombinedStampsOnce | combined_pyppeteer.py:149-209 | every row the combined run adds carries the one timestamp taken at start-up |
| Pipeline.CombinedRerunAddsNothing | combined_pyppeteer.py:119-220 | running the combined script again on the same pages against the sheet it wrote adds and sends nothing |
| Pipeline.CombinedCandidatesStamped | combined_pyppeteer.py:149-186 | every candidate of the combined run has the start-up timestamp |
| Pipeline.CombinedCandidatesIntended | combined_pyppeteer.py:186 | with concatenation the candidates hold every record of both pages, with multiplicity; the faults are those of the written merge, in the same order; when both pages build the candidates are the concatenation |
| Pipeline.RunCombinedIntended | combined_pyppeteer.py:119-220 | the intended combined run keeps the sheet, readiness and page faults of the written one; with both pages built it writes exactly when the concatenation holds a URL new to the sheet; every write is followed by one message per configured recipient |
| Pipeline.IntendedRunWritesEveryNewListing | combined_pyppeteer.py:186-209 | with concatenation, every record of either page with an unknown URL is written |
| Pipeline.VboCandidates | vbo_pyppeteer.py:72-114 | a readiness timeout is a fault; otherwise the VBO page's records |
| Pipeline.RunVbo | vbo_pyppeteer.py:78-173 | sheet faults, then the readiness fault, then an item fault end the run with no effects; with the page built it writes exactly when some record's URL is new to the sheet; every write is followed by one message per configured recipient |
| Pipeline.VboEmptyStoreOrPageAborts | vbo_pyppeteer.py:117-126 | an empty sheet or an empty page stops the run at the URL lookup |
| Pipeline.RunAnywhere | pythonanywhere.py:79-175 | sheet faults, then an item fault end the run with no effects; with the page built it writes exactly when some record's URL is new to the sheet; every write is followed by one message per configured recipient |
| Pipeline.DriverCandidates | pararius_selenium.py:64-108 | a readiness timeout is a fault; otherwise the driver page's records, with or without size |
| Pipeline.RunParariusSelenium | pararius_selenium.py:44-167 | sheet faults, then the readiness fault, then an item fault end the run with no effects; with the page built it writes exactly when some record's URL is new to the sheet; every write is followed by exactly one message, to the single configured recipient |
| Pipeline.SeleniumMissingSizeAborts | pararius_selenium.py:96-99 | one item without a surface-area element ends the run with no effects |
| Pipeline.RunMain | main.py:35-122 | sheet faults come before the browser is consulted; then the readiness fault, then an item fault; never any message; with the page built it writes exactly when some record's URL is new to the sheet, at most once |

## Left out

- Browser automation (launch, navigation, `waitForSelector`, `WebDriverWait`) is an input: a `Page` that is either loaded with its items or not ready. A navigation failure and a crash of the browser itself are not modelled.
- HTML parsing and CSS selectors: each item is the optional strings its selectors would return. `get_text(strip=True)` is modelled as `strip()` of the element's text, which ignores how BeautifulSoup strips each text node separately.
- The Selenium anchor that is found but has no `href` (where `get_attribute` returns `None`) is not distinguished from a missing anchor.
- Google Sheets: authentication, `get_all_records` and `update` are replaced by the `Sheet` input and the written tables. The type coercion of numeric-looking cells by gspread and pandas is not modelled; all cells are strings. A sheet whose header repeats a column, which `get_all_records` rejects, is not modelled.
- SMTP and MIME: a message is only its envelope recipient, subject and body. Connection and login failures, and the `msg["To"]` header that is set after the message text was already rendered, are not modelled.
- Environment variables and the clock: the spreadsheet id, the recipient list, the start-up timestamp and the per-record clock readings are parameters. An unset `EMAIL_RECIPIENTS`, which fails at load, is not modelled.
- Console output and `driver.quit()` are not modelled.
- `asyncio.gather`: the two pages come back as a pair. The Pararius fetch of the combined script has no readiness wait, so only the VBO page can time out.
- Merge.MergeByIndex: the dict is modelled through its values in key order rather than as a Python dict, which is what `from_dict(orient="index")` reads.

## Findings

| source | as written | input that shows it | evidently intended | confidence | as-written member | corrected member |
|---|---|---|---|---|---|---|
| combined_pyppeteer.py:186 | `{**pararius_properties, **vbo_properties}` over two dicts that both number their records from 1, so a VBO record replaces the Pararius record with the same number | one Pararius listing and one VBO listing: the merged dict holds only the VBO listing (`Merge.IndexMergeLosesOnePage`) | every record of both pages reaches the URL check, the Pararius page first | not executed | Merge.MergeByIndex | Merge.MergeConcat |

`Pipeline.RunCombined` models the script as written, so it uses
`Merge.MergeByIndex`. `Pipeline.RunCombinedIntended` is the same run built
on `Merge.MergeConcat`. `Pipeline.IntendedRunWritesEveryNewListing`
proves that the intended run writes every record with an unknown URL,
which the run as written does not do
(`Pipeline.CombinedNeverWritesShadowed`).

=== FILE: dedup.dfy ===
/** The new-listing check every script runs:
    `new_df[~new_df["URL"].isin(existing_df["URL"])]`. */
module Dedup {
  import opened Wrappers
  import opened Seqs
  import opened Listings
  import opened Store

  /** The candidates whose URL is not in `urls`, in candidate order. */
  function KeepNew(cands: seq<Listing>, urls: set<string>): (kept: seq<Listing>)
    ensures forall l :: l in kept <==> l in cands && l.url !in urls
    ensures |kept| <= |cands|
    ensures kept == [] <==> forall l :: l in cands ==> l.url in urls
    decreases |cands|
  {
    if cands == [] then []
    else
      var rest := KeepNew(cands[1..], urls);
      assert forall l :: l in cands <==> l == cands[0] || l in cands[1..];
      (if cands[0].url in urls then [] else [cands[0]]) + rest
  }

  /** A kept listing is kept as many times as it occurs among the candidates;
      a listing with an old URL not at all. */
  lemma {:induction false} KeepNewCounts(cands: seq<Listing>, urls: set<string>)
    ensures forall l :: multiset(KeepNew(cands, urls))[l] == if l.url in urls then 0 else multiset(cands)[l]
    decreases |cands|
  {
    if cands != [] {
      KeepNewCounts(cands[1..], urls);
      assert cands == [cands[0]] + cands[1..];
      assert multiset(cands) == multiset{cands[0]} + multiset(cands[1..]);
      var rest := KeepNew(cands[1..], urls);
      if cands[0].url in urls {
        assert KeepNew(cands, urls) == rest;
      } else {
        assert KeepNew(cands, urls) == [cands[0]] + rest;
        assert multiset(KeepNew(cands, urls)) == multiset{cands[0]} + multiset(rest);
      }
    }
  }

  /** When every candidate carries timestamp `stamp`, so does every kept
      one. */
  lemma KeptStamped(cands: seq<Listing>, urls: set<string>, stamp: string)
    requires forall l :: l in cands ==> l.timestamp == stamp
    ensures forall l :: l in KeepNew(cands, urls) ==> l.timestamp == stamp
  {
  }

  /** When no candidate has URL `url`, no kept one has. */
  lemma KeptAvoidUrl(cands: seq<Listing>, urls: set<string>, url: string)
    requires forall l :: l in cands ==> l.url != url
    ensures forall l :: l in KeepNew(cands, urls) ==> l.url != url
  {
  }

  /** `a` is `b` with some elements left out, the rest in their order. */
  ghost predicate IsSubsequence(a: seq<Listing>, b: seq<Listing>)
    decreases |b|
  {
    || a == []
    || (&& b != []
        && ((a[0] == b[0] && IsSubsequence(a[1..], b[1..])) || IsSubsequence(a, b[1..])))
  }

  /** A row mask keeps the candidate order: the new listings are a
      subsequence of the candidates. */
  lemma {:induction false} KeepNewIsSubsequence(cands: seq<Listing>, urls: set<string>)
    ensures IsSubsequence(KeepNew(cands, urls), cands)
    decreases |cands|
  {
    if cands != [] {
      KeepNewIsSubsequence(cands[1..], urls);
      var rest := KeepNew(cands[1..], urls);
      if cands[0].url !in urls {
        assert KeepNew(cands, urls) == [cands[0]] + rest;
        assert ([cands[0]] + rest)[1..] == rest;
      } else {
        assert KeepNew(cands, urls) == rest;
      }
    }
  }

  /** The `isin` mask: `Err` when either frame lacks the `URL` column,
      otherwise the candidates whose URL the sheet does not hold. */
  function Diff(cands: seq<Listing>, store: Table): (r: Result<seq<Listing>, Fault>)
    ensures r.Err? <==> cands == [] || !HasUrlColumn(store)
    ensures r.Err? ==> r.error == NoUrlColumn
    ensures r.Ok? ==> |r.value| <= |cands|
  {
    if cands == [] || !HasUrlColumn(store) then Err(NoUrlColumn)
    else Ok(KeepNew(cands, ExistingUrls(store)))
  }

  /** Of a known and an unknown candidate only the unknown one is kept. */
  lemma KeepsOnlyUnknown(known: Listing, unknown: Listing, urls: set<string>)
    requires known.url in urls && unknown.url !in urls
    ensures KeepNew([known, unknown], urls) == [unknown]
  {
    assert [known, unknown][1..] == [unknown];
    assert [unknown][1..] == [];
    assert KeepNew([unknown], urls) == [unknown] + KeepNew([], urls);
  }

  /** The check finds something new: the sheet has a `URL` column and some
      candidate's URL is not in it. */
  predicate FindsNew(cands: seq<Listing>, store: Table) {
    HasUrlColumn(store) && KeepNew(cands, ExistingUrls(store)) != []
  }

  /** The sheet holds `url` in some record's `URL` cell. */
  ghost predicate SheetHolds(store: Table, url: string) {
    exists i :: 0 <= i < |store.rows| && UrlKey in store.rows[i] && store.rows[i][UrlKey] == url
  }

  /** The new listings are the set difference of candidates and sheet by URL:
      a candidate is kept exactly when no record of the sheet carries its URL,
      and a kept candidate appears as many times as among the candidates. */
  lemma DiffIsUrlSetDifference(cands: seq<Listing>, store: Table)
    requires cands != [] && HasUrlColumn(store)
    ensures var r := Diff(cands, store);
            && r.Ok?
            && (forall l :: l in r.value <==> l in cands && !SheetHolds(store, l.url))
            && (forall l :: l in cands && !SheetHolds(store, l.url) ==> multiset(r.value)[l] == multiset(cands)[l])
            && IsSubsequence(r.value, cands)
  {
    assert Diff(cands, store) == Ok(KeepNew(cands, ExistingUrls(store)));
    KeepNewCounts(cands, ExistingUrls(store));
    KeepNewIsSubsequence(cands, ExistingUrls(store));
    forall u ensures u in ExistingUrls(store) <==> SheetHolds(store, u) {
      if SheetHolds(store, u) {
        var i :| 0 <= i < |store.rows| && UrlKey in store.rows[i] && store.rows[i][UrlKey] == u;
        assert u in ExistingUrls(store);
      }
    }
  }

  /** Two candidates with the same new URL both survive: the check does not
      deduplicate within one run's candidates. */
  lemma DuplicateCandidatesBothKept(l: Listing, m: Listing, store: Table)
    requires l.url == m.url && HasUrlColumn(store) && l.url !in ExistingUrls(store)
    ensures Diff([l, m], store) == Ok([l, m])
  {
    var urls := ExistingUrls(store);
    assert [l, m][1..] == [m];
    assert [m][1..] == [];
    assert KeepNew([m], urls) == [m] + KeepNew([], urls) == [m];
    assert KeepNew([l, m], urls) == [l] + KeepNew([m], urls);
    assert [l] + [m] == [l, m];
    assert Diff([l, m], store) == Ok(KeepNew([l, m], urls));
  }

  /** The same check as `Diff`, computed in one pass: collect the sheet's
      URLs once, then keep each candidate whose URL is not among them, in
      candidate order. */
  method Dedup(cands: seq<Listing>, store: Table) returns (r: Result<seq<Listing>, Fault>)
    ensures r == Diff(cands, store)
  {
    if cands == [] || !HasUrlColumn(store) {
      return Err(NoUrlColumn);
    }
    var seen := CollectUrls(store);
    var kept: seq<Listing> := [];
    var k := 0;
    while k < |cands|
      invariant 0 <= k <= |cands|
      invariant kept == KeepNew(cands[..k], seen)
    {
      KeepNewSnoc(cands[..k], cands[k], seen);
      PrefixSnoc(cands, k);
      if cands[k].url !in seen {
        kept := kept + [cands[k]];
      }
      k := k + 1;
    }
    assert cands[..|cands|] == cands;
    assert Diff(cands, store) == Ok(KeepNew(cands, seen));
    return Ok(kept);
  }

  /** The sheet's `URL` cells, gathered in one pass over its records. */
  method CollectUrls(store: Table) returns (seen: set<string>)
    ensures seen == ExistingUrls(store)
  {
    seen := {};
    var i := 0;
    while i < |store.rows|
      invariant 0 <= i <= |store.rows|
      invariant seen == UrlColumn(store.rows[..i])
    {
      assert store.rows[..i + 1][..i] == store.rows[..i];
      if UrlKey in store.rows[i] {
        seen := seen + {store.rows[i][UrlKey]};
      }
      i := i + 1;
    }
    assert store.rows[..|store.rows|] == store.rows;
  }

  /** Filtering one more candidate extends the result by that candidate
      exactly when its URL is new. */
  lemma {:induction false} KeepNewSnoc(cands: seq<Listing>, l: Listing, urls: set<string>)
    ensures KeepNew(cands + [l], urls) == KeepNew(cands, urls) + (if l.url in urls then [] else [l])
    decreases |cands|
  {
    var c := cands + [l];
    var last: seq<Listing> := if l.url in urls then [] else [l];
    if cands == [] {
      assert c == [l] && c[1..] == [];
      assert KeepNew(c, urls) == last + KeepNew([], urls);
    } else {
      SnocTail(cands, l);
      var head: seq<Listing> := if cands[0].url in urls then [] else [cands[0]];
      assert KeepNew(c, urls) == head + KeepNew(cands[1..] + [l], urls);
      KeepNewSnoc(cands[1..], l, urls);
      assert KeepNew(cands, urls) == head + KeepNew(cands[1..], urls);
      Reassociate(head, KeepNew(cands[1..], urls), last);
    }
  }

}

=== FILE: listing.dfy ===
/** The canonical listing record every scraper produces, and the faults that
    end a run early. */
module Listings {
  import opened Wrappers

  /** One value of a record's dict: the key may be absent (`Missing`), present
      with Python's `None` (`Null`), or present with a string. */
  datatype Cell = Missing | Null | Text(text: string)

  /** One scraped listing. `url` is the identity the store is checked against;
      `size` and `energyLabel` are the fields only some sources fill. */
  datatype Listing = Listing(
    address: string,
    url: string,
    size: Cell,
    energyLabel: Cell,
    price: string,
    timestamp: string)

  /** Why a run stops before it writes the sheet or sends any email:
      the spreadsheet or worksheet cannot be opened (`gspread` exceptions),
      the browser's readiness wait fails, a required element is absent from
      an item (`AttributeError`/`KeyError`/`NoSuchElementException`), a VBO
      size line has no colon (`IndexError`), or a frame lacks the `URL`
      column (`KeyError`). */
  datatype Fault =
    | SpreadsheetNotFound
    | WorksheetNotFound
    | PageNotReady
    | MissingElement
    | SizeWithoutColon
    | NoUrlColumn

  const AddressKey := "address"
  const UrlKey := "URL"
  const SizeKey := "size"
  const EnergyKey := "energy_label"
  const PriceKey := "price"
  const TimestampKey := "timestamp"

  /** The six keys are six different strings (they differ in length). */
  lemma KeysDiffer()
    ensures AddressKey != UrlKey && AddressKey != SizeKey && AddressKey != EnergyKey
    ensures AddressKey != PriceKey && AddressKey != TimestampKey
    ensures UrlKey != SizeKey && UrlKey != EnergyKey && UrlKey != PriceKey && UrlKey != TimestampKey
    ensures SizeKey != EnergyKey && SizeKey != PriceKey && SizeKey != TimestampKey
    ensures EnergyKey != PriceKey && EnergyKey != TimestampKey
    ensures PriceKey != TimestampKey
  {
    assert |AddressKey| == 7 && |UrlKey| == 3 && |SizeKey| == 4;
    assert |EnergyKey| == 12 && |PriceKey| == 5 && |TimestampKey| == 9;
  }

  /** No element occurs twice. */
  predicate Distinct<T(==)>(s: seq<T>) {
    forall i, j :: 0 <= i < j < |s| ==> s[i] != s[j]
  }

  /** Every key in `cols` is one of the six record keys. */
  predicate OnlyKnownKeys(cols: seq<string>) {
    forall c :: c in cols ==> c in [AddressKey, UrlKey, SizeKey, EnergyKey, PriceKey, TimestampKey]
  }

  /** The keys of the dict a scraper builds for `l`, in insertion order. The
      order is the same in every script; only the optional keys differ: the
      contract fixes the sequence, with `size` right after `URL` and
      `energy_label` right before `price`. */
  function Columns(l: Listing): (cols: seq<string>)
    ensures 4 <= |cols| <= 6 && Distinct(cols)
    ensures cols[..2] == [AddressKey, UrlKey]
    ensures cols[|cols| - 2..] == [PriceKey, TimestampKey]
    ensures SizeKey in cols <==> !l.size.Missing?
    ensures EnergyKey in cols <==> !l.energyLabel.Missing?
    ensures OnlyKnownKeys(cols)
    ensures SizeKey in cols ==> cols[2] == SizeKey
    ensures EnergyKey in cols ==> cols[|cols| - 3] == EnergyKey
  {
    KeysDiffer();
    [AddressKey, UrlKey]
    + (if l.size.Missing? then [] else [SizeKey])
    + (if l.energyLabel.Missing? then [] else [EnergyKey])
    + [PriceKey, TimestampKey]
  }

  /** A listing with both optional fields has all six keys. */
  lemma ColumnsOfFull(l: Listing)
    requires !l.size.Missing? && !l.energyLabel.Missing?
    ensures Columns(l) == [AddressKey, UrlKey, SizeKey, EnergyKey, PriceKey, TimestampKey]
  {
  }

  /** A listing with neither optional field has only the four mandatory
      keys. */
  lemma ColumnsOfBare(l: Listing)
    requires l.size.Missing? && l.energyLabel.Missing?
    ensures Columns(l) == [AddressKey, UrlKey, PriceKey, TimestampKey]
  {
  }

  /** The dict value a present cell holds. */
  function CellValue(c: Cell): Option<string> {
    match c
    case Text(s) => Some(s)
    case _ => None
  }

  /** The dict a scraper builds for `l`: its keys are exactly `Columns(l)`,
      the four mandatory keys hold their fields, and an optional key holds
      the field's value, `None` included. */
  function Cells(l: Listing): (m: map<string, Option<string>>)
    ensures forall k :: k in m <==> k in Columns(l)
    ensures m[UrlKey] == Some(l.url) && m[AddressKey] == Some(l.address)
    ensures m[PriceKey] == Some(l.price) && m[TimestampKey] == Some(l.timestamp)
    ensures SizeKey in m ==> m[SizeKey] == CellValue(l.size)
    ensures EnergyKey in m ==> m[EnergyKey] == CellValue(l.energyLabel)
  {
    KeysDiffer();
    var cols := Columns(l);
    assert AddressKey in cols && UrlKey in cols && PriceKey in cols && TimestampKey in cols by {
      assert cols[0] == AddressKey && cols[1] == UrlKey;
      assert cols[|cols| - 2] == PriceKey && cols[|cols| - 1] == TimestampKey;
    }
    map k | k in cols :: CellAt(l, k)
  }

  /** The value the dict of `l` holds under key `k`, when it has that key. */
  function CellAt(l: Listing, k: string): Option<string> {
    if k == AddressKey then Some(l.address)
    else if k == UrlKey then Some(l.url)
    else if k == SizeKey then CellValue(l.size)
    else if k == EnergyKey then CellValue(l.energyLabel)
    else if k == PriceKey then Some(l.price)
    else Some(l.timestamp)
  }
}

=== FILE: merge.dfy ===
/** How the combined script joins its two pages of records:
    `{**pararius_properties, **vbo_properties}` over dicts that both number
    their records from 1. */
module Merge {
  import opened Listings

  function Min(a: int, b: int): int {
    if a <= b then a else b
  }

  function Max(a: int, b: int): int {
    if a <= b then b else a
  }

  /** `dict(enumerate(records, start=1))`: record `k` (counting from 1) under
      key `k`. */
  function Enumerate(records: seq<Listing>): (m: map<int, Listing>)
    ensures forall k :: k in m <==> 1 <= k <= |records|
    ensures forall k :: 1 <= k <= |records| ==> m[k] == records[k - 1]
  {
    if records == [] then map[]
    else Enumerate(records[..|records| - 1])[|records| := records[|records| - 1]]
  }

  /** `{**a, **b}`: every key of either dict; on a shared key `b`'s value
      replaces `a`'s while the key keeps its first position. */
  function Unpack(a: map<int, Listing>, b: map<int, Listing>): (m: map<int, Listing>)
    ensures forall k :: k in m <==> k in a || k in b
    ensures forall k :: k in m ==> m[k] == if k in b then b[k] else a[k]
  {
    a + b
  }

  /** The values of a dict keyed `1..n`, in key order. For `{**p, **v}` over
      two enumerated dicts this is also insertion order: `p`'s keys `1..|p|`
      come first, then `v`'s keys above `|p|`. */
  function InKeyOrder(m: map<int, Listing>, n: nat): (rows: seq<Listing>)
    requires forall k :: 1 <= k <= n ==> k in m
    ensures |rows| == n
    ensures forall k :: 0 <= k < n ==> rows[k] == m[k + 1]
  {
    if n == 0 then [] else InKeyOrder(m, n - 1) + [m[n]]
  }

  /** The combined script's candidate rows, as the code computes them. The
      result is the VBO page followed by only those Pararius records whose
      position lies beyond the end of the VBO page: at every shared index the
      VBO record replaces the Pararius one. */
  function MergeByIndex(pararius: seq<Listing>, vbo: seq<Listing>): (merged: seq<Listing>)
    ensures merged == vbo + pararius[Min(|pararius|, |vbo|)..]
  {
    var p := Enumerate(pararius);
    var v := Enumerate(vbo);
    var m := Unpack(p, v);
    assert forall k :: 1 <= k <= Max(|pararius|, |vbo|) ==> k in m by {
      forall k | 1 <= k <= Max(|pararius|, |vbo|) ensures k in m {
        assert k in p || k in v;
      }
    }
    var merged := InKeyOrder(m, Max(|pararius|, |vbo|));
    var expected := vbo + pararius[Min(|pararius|, |vbo|)..];
    assert |merged| == |expected|;
    forall k | 0 <= k < |merged| ensures merged[k] == expected[k] {
      if k < |vbo| {
        assert k + 1 in v;
        assert merged[k] == m[k + 1] == vbo[k];
      } else {
        assert k + 1 !in v && k + 1 in p;
        assert merged[k] == m[k + 1] == pararius[k];
      }
    }
    merged
  }

  /** Every merged record comes from one of the two pages. */
  lemma MergeByIndexInvents(pararius: seq<Listing>, vbo: seq<Listing>)
    ensures forall l :: l in MergeByIndex(pararius, vbo) ==> l in pararius || l in vbo
  {
    var merged := MergeByIndex(pararius, vbo);
    var rest := pararius[Min(|pararius|, |vbo|)..];
    assert merged == vbo + rest;
    assert forall l :: l in rest ==> l in pararius;
  }

  /** The merge keeps every record of both pages only when one page is
      empty. */
  lemma IndexMergeLossless(pararius: seq<Listing>, vbo: seq<Listing>)
    ensures |MergeByIndex(pararius, vbo)| == |pararius| + |vbo| <==> pararius == [] || vbo == []
  {
  }

  /** A Pararius record at a position the VBO page also fills never reaches
      the dedup step, unless another surviving record has its URL. */
  lemma ShadowedParariusDropped(pararius: seq<Listing>, vbo: seq<Listing>, k: nat)
    requires k < |pararius| && k < |vbo|
    requires forall j :: 0 <= j < |vbo| ==> vbo[j].url != pararius[k].url
    requires forall j :: |vbo| <= j < |pararius| ==> pararius[j].url != pararius[k].url
    ensures forall l :: l in MergeByIndex(pararius, vbo) ==> l.url != pararius[k].url
  {
    var merged := MergeByIndex(pararius, vbo);
    var rest := pararius[Min(|pararius|, |vbo|)..];
    assert merged == vbo + rest;
    forall l | l in merged ensures l.url != pararius[k].url {
      if l !in vbo {
        var j :| 0 <= j < |rest| && rest[j] == l;
        assert l == pararius[|vbo| + j];
      }
    }
  }

  /** One Pararius listing and one VBO listing: the merge keeps only the VBO
      one. */
  lemma IndexMergeLosesOnePage()
    ensures var a := Listing("Damrak 1", "https://www.pararius.nl/a", Text("70 m²"), Missing, "€ 400.000", "t");
            var b := Listing("Dam 2", "https://www.vbo.nl/b", Null, Text("A"), "€ 300.000", "t");
            MergeByIndex([a], [b]) == [b] && a !in MergeByIndex([a], [b])
  {
  }

  /** The evidently intended combination: every record of both pages, each
      page in document order, the Pararius page first. */
  function MergeConcat(pararius: seq<Listing>, vbo: seq<Listing>): (merged: seq<Listing>)
    ensures |merged| == |pararius| + |vbo|
    ensures merged[..|pararius|] == pararius && merged[|pararius|..] == vbo
  {
    pararius + vbo
  }

  /** No record is lost or invented by the intended combination. */
  lemma ConcatKeepsEverySource(pararius: seq<Listing>, vbo: seq<Listing>)
    ensures multiset(MergeConcat(pararius, vbo)) == multiset(pararius) + multiset(vbo)
    ensures forall l :: l in MergeConcat(pararius, vbo) <==> l in pararius || l in vbo
  {
    var merged := MergeConcat(pararius, vbo);
    assert merged == merged[..|pararius|] + merged[|pararius|..];
  }

  /** The two merges agree exactly when one page is empty. */
  lemma MergesAgreeOnlyWithOnePage(pararius: seq<Listing>, vbo: seq<Listing>)
    ensures MergeByIndex(pararius, vbo) == MergeConcat(pararius, vbo) <==> pararius == [] || vbo == []
  {
    if pararius != [] && vbo != [] {
      assert |MergeByIndex(pararius, vbo)| < |MergeConcat(pararius, vbo)|;
    } else if pararius == [] {
      assert MergeByIndex(pararius, vbo) == vbo;
    } else {
      assert pararius[0..] == pararius;
    }
  }
}

=== FILE: notify.dfy ===
/** The notification the emailing scripts send once they have written new
    listings: a fixed subject, a body reporting the count and linking the
    sheet, one message per recipient. */
module Notify {
  import opened Wrappers
  import opened Seqs
  import opened Text

  const Subject := "New Property Listings Added"
  const BodyLead := "Added "
  const BodyMiddle := " new listings to the Google Sheet.\n\n"
  const SheetUrlHead := "https://docs.google.com/spreadsheets/d/"
  const SheetUrlTail := "/edit?gid=0#gid=0"

  /** The link to the first worksheet of spreadsheet `id`. */
  function SheetLink(id: string): string {
    SheetUrlHead + id + SheetUrlTail
  }

  /** The message text reporting `n` new listings in spreadsheet `id`. */
  function Body(n: nat, id: string): (b: string)
    ensures StartsWith(b, BodyLead)
    ensures |SheetLink(id)| <= |b| && b[|b| - |SheetLink(id)|..] == SheetLink(id)
  {
    EndsOfFour(BodyLead, NatToString(n), BodyMiddle, SheetLink(id));
    BodyLead + NatToString(n) + BodyMiddle + SheetLink(id)
  }

  /** One message handed to the mail server: envelope recipient, subject and
      plain-text body. */
  datatype Email = Email(recipient: string, subject: string, body: string)

  /** `EMAIL_RECIPIENTS.split(",")`: the configured list, pieces kept as they
      are (no trimming, an empty piece stays). */
  function Recipients(config: string): (rs: seq<string>)
    ensures |rs| >= 1
    ensures forall k :: 0 <= k < |rs| ==> ',' !in rs[k]
  {
    Split(config, ',')
  }

  /** The recipient list loses nothing of the configured value. */
  lemma RecipientsRoundTrip(config: string)
    ensures Join(Recipients(config), ',') == config
  {
    JoinSplit(config, ',');
  }

  /** The messages `send_email` hands to the server for `n` new listings:
      one per recipient, in list order, each with the same subject and
      body. */
  function Mail(recipients: seq<string>, n: nat, id: string): (mails: seq<Email>)
    ensures |mails| == |recipients|
    ensures forall k :: 0 <= k < |recipients| ==>
              mails[k] == Email(recipients[k], Subject, Body(n, id))
  {
    seq(|recipients|, k requires 0 <= k < |recipients| => Email(recipients[k], Subject, Body(n, id)))
  }

  /** The count a reader finds in a message body: the digits right after
      "Added ". */
  function ReportedCount(body: string): (n: Option<nat>)
    ensures n.Some? ==> StartsWith(body, BodyLead)
  {
    if !StartsWith(body, BodyLead) then None
    else
      var digits := LeadingDigits(body[|BodyLead|..]);
      if digits == [] then None else Some(DigitsValue(digits))
  }

  /** Every message body states the number of listings added. */
  lemma {:induction false} BodyReportsCount(n: nat, id: string)
    ensures ReportedCount(Body(n, id)) == Some(n)
  {
    var digits := NatToString(n);
    var rest := BodyMiddle + SheetLink(id);
    var body := Body(n, id);
    Regroup(BodyLead, digits, BodyMiddle, SheetLink(id));
    SplitAfterPrefix(BodyLead, digits + rest);
    assert StartsWith(body, BodyLead);
    assert BodyMiddle[0] == ' ';
    HeadOfConcat(BodyMiddle, SheetLink(id));
    LeadingDigitsOf(digits, rest);
    NatToStringRoundTrip(n);
  }

  /** Every message body carries the link to the sheet. */
  lemma BodyLinksSheet(n: nat, id: string)
    ensures Contains(Body(n, id), SheetLink(id))
  {
    EndsWithOccurs(BodyLead + NatToString(n) + BodyMiddle, SheetLink(id));
  }

  lemma EndsWithOccurs(a: string, b: string)
    ensures Contains(a + b, b)
  {
    assert (a + b)[|a|..|a| + |b|] == b;
    assert OccursAt(a + b, b, |a|);
  }

  /** Two bodies for different counts differ: the body pins down the count. */
  lemma BodyDeterminesCount(n: nat, m: nat, id: string, id2: string)
    requires Body(n, id) == Body(m, id2)
    ensures n == m
  {
    BodyReportsCount(n, id);
    BodyReportsCount(m, id2);
  }
}

=== FILE: pipeline.dfy ===
/** One run of each script: open the sheet, wait for the page, build the
    candidate records, check them against the sheet, and write and notify
    only when something is new. Browser, sheet and mail server are inputs
    and outputs of a pure function: what the browser found is a `Page`, the
    sheet's state a `Sheet`, and what the run does to the world an
    `Outcome` listing the tables written and the messages sent. */
module Pipeline {
  import opened Wrappers
  import opened Text
  import opened Listings
  import opened Sources
  import opened Merge
  import opened Store
  import opened Dedup
  import opened Notify

  /** What `client.open_by_key(id).worksheet("Listings")` yields at load.
      A snapshot read by `get_all_records()` is `WellFormed`; the runs below
      do not rely on that, so what is proved about them holds for any
      snapshot. */
  datatype Sheet = Opened(snapshot: Table) | NoSpreadsheet | NoWorksheet

  /** What the browser hands back after its readiness wait: the items on the
      page, or a wait that timed out. */
  datatype Page<T> = Loaded(items: seq<T>) | NotReady

  /** Who hears about new listings: nobody, or each address in a list about
      the given spreadsheet. */
  datatype Notice = Silent | MailTo(recipients: seq<string>, spreadsheetId: string)

  /** How a run ends: having added `added` listings (0 for "No new listings
      found."), or stopped by a fault. */
  datatype Status = Done(added: nat) | Aborted(fault: Fault)

  /** A run's status with everything it did to the world: each full-table
      `sheet.update` in order and each message handed to the mail server. */
  datatype Outcome = Outcome(status: Status, writes: seq<Table>, emails: seq<Email>)

  /** A run stopped by `f`, having written and sent nothing. */
  function Abort(f: Fault): Outcome {
    Outcome(Aborted(f), [], [])
  }

  /** The sheet the run works on, or the fault that made the script exit. */
  function OpenSheet(sheet: Sheet): (r: Result<Table, Fault>)
    ensures r.Ok? <==> sheet.Opened?
    ensures sheet.NoSpreadsheet? ==> r == Err(SpreadsheetNotFound)
    ensures sheet.NoWorksheet? ==> r == Err(WorksheetNotFound)
  {
    match sheet
    case Opened(t) => Ok(t)
    case NoSpreadsheet => Err(SpreadsheetNotFound)
    case NoWorksheet => Err(WorksheetNotFound)
  }

  /** The messages a notice asks for once `n` listings have been added. */
  function Notification(notice: Notice, n: nat): (mails: seq<Email>)
    ensures notice.Silent? ==> mails == []
    ensures notice.MailTo? ==> |mails| == |notice.recipients|
  {
    match notice
    case Silent => []
    case MailTo(rs, id) => Mail(rs, n, id)
  }

  /** From the candidate records on: check them against the sheet, and when
      some are new write the extended table once and then notify. */
  function Publish(cands: seq<Listing>, store: Table, notice: Notice): (o: Outcome)
    ensures o.status.Aborted? <==> cands == [] || !HasUrlColumn(store)
    ensures o.status.Aborted? ==> o == Abort(NoUrlColumn)
    ensures o.status.Done? ==> o.status.added <= |cands|
    ensures |o.writes| <= 1
    ensures |o.writes| == 1 <==> o.status.Done? && o.status.added > 0
    ensures o.writes != [] <==> FindsNew(cands, store)
    ensures o.writes == [] ==> o.emails == []
    ensures notice.Silent? ==> o.emails == []
    ensures notice.MailTo? && o.writes != [] ==> |o.emails| == |notice.recipients|
  {
    match Diff(cands, store)
    case Err(f) => Abort(f)
    case Ok(added) =>
      if added == [] then Outcome(Done(0), [], [])
      else Outcome(Done(|added|), [Append(store, FrameColumns(cands), added)], Notification(notice, |added|))
  }

  /** The run shape every script shares: a sheet that cannot be opened ends
      the run before anything else; otherwise a fault while gathering the
      candidates ends it; otherwise the candidates are published. */
  function Run(sheet: Sheet, cands: Result<seq<Listing>, Fault>, notice: Notice): (o: Outcome)
    ensures !sheet.Opened? ==> o == Abort(OpenSheet(sheet).error)
    ensures sheet.Opened? && cands.Err? ==> o == Abort(cands.error)
    ensures sheet.Opened? && cands.Ok? ==> o == Publish(cands.value, sheet.snapshot, notice)
    ensures sheet.Opened? && cands.Ok? ==> (o.writes != [] <==> FindsNew(cands.value, sheet.snapshot))
    ensures o.status.Aborted? ==> o.writes == [] && o.emails == []
    ensures |o.writes| <= 1 && (o.writes == [] ==> o.emails == [])
    ensures notice.Silent? ==> o.emails == []
    ensures notice.MailTo? && o.writes != [] ==> |o.emails| == |notice.recipients|
  {
    match OpenSheet(sheet)
    case Err(f) => Abort(f)
    case Ok(store) =>
      match cands
      case Err(f) => Abort(f)
      case Ok(c) => Publish(c, store, notice)
  }

  /** What the written table holds: every old record with its cells, then the
      candidates the sheet did not know, in candidate order, each filled out
      to the new header; the header grows only at its end. */
  lemma PublishedTable(cands: seq<Listing>, store: Table, notice: Notice)
    requires FindsNew(cands, store)
    ensures var o := Publish(cands, store, notice);
            var added := KeepNew(cands, ExistingUrls(store));
            && o.status == Done(|added|) && |added| > 0
            && IsAppendOf(o.writes[0], store, added)
            && (forall l :: l in added <==> l in cands && l.url !in ExistingUrls(store))
            && IsSubsequence(added, cands)
  {
    var added := KeepNew(cands, ExistingUrls(store));
    assert Diff(cands, store) == Ok(added);
    KeepNewIsSubsequence(cands, ExistingUrls(store));
  }

  /** The rows a run adds are the new candidates' records, in order: row
      `|store.rows| + j` carries the URL and timestamp of the `j`-th new
      candidate. */
  lemma NewRowsComeFromCandidates(cands: seq<Listing>, store: Table, notice: Notice)
    requires FindsNew(cands, store)
    ensures var t := Publish(cands, store, notice).writes[0];
            var added := KeepNew(cands, ExistingUrls(store));
            && |t.rows| == |store.rows| + |added|
            && (forall j :: 0 <= j < |added| ==> CarriesKeys(t.rows[|store.rows| + j], added[j]))
  {
    var added := KeepNew(cands, ExistingUrls(store));
    var t := Append(store, FrameColumns(cands), added);
    assert Diff(cands, store) == Ok(added);
    assert Publish(cands, store, notice).writes[0] == t;
    assert UrlKey in Columns(cands[0]) && TimestampKey in Columns(cands[0]);
    assert UrlKey in t.header && TimestampKey in t.header;
    AppendedRowsFrom(t, store, added);
  }

  /** The table a publishing run writes is the sheet with the new candidates
      appended under the candidate frame's columns, which include `URL` and
      `timestamp`. */
  lemma PublishWrites(cands: seq<Listing>, store: Table, notice: Notice)
    requires FindsNew(cands, store)
    ensures Publish(cands, store, notice).writes[0]
            == Append(store, FrameColumns(cands), KeepNew(cands, ExistingUrls(store)))
    ensures UrlKey in FrameColumns(cands) && TimestampKey in FrameColumns(cands)
  {
    assert Diff(cands, store) == Ok(KeepNew(cands, ExistingUrls(store)));
    assert UrlKey in Columns(cands[0]) && TimestampKey in Columns(cands[0]);
  }

  /** A URL no candidate has is in no row the run adds. */
  lemma NewRowsAvoidUrl(cands: seq<Listing>, store: Table, notice: Notice, url: string)
    requires FindsNew(cands, store)
    requires forall l :: l in cands ==> l.url != url
    ensures var t := Publish(cands, store, notice).writes[0];
            forall i :: |store.rows| <= i < |t.rows| ==> UrlKey in t.rows[i] && t.rows[i][UrlKey] != url
  {
    PublishWrites(cands, store, notice);
    KeptAvoidUrl(cands, ExistingUrls(store), url);
    AppendAvoidsUrl(store, FrameColumns(cands), KeepNew(cands, ExistingUrls(store)), url);
  }

  /** When every candidate carries timestamp `stamp`, so does every row the
      run adds. */
  lemma NewRowsStamped(cands: seq<Listing>, store: Table, notice: Notice, stamp: string)
    requires FindsNew(cands, store)
    requires forall l :: l in cands ==> l.timestamp == stamp
    ensures var t := Publish(cands, store, notice).writes[0];
            forall i :: |store.rows| <= i < |t.rows| ==>
              TimestampKey in t.rows[i] && t.rows[i][TimestampKey] == stamp
  {
    PublishWrites(cands, store, notice);
    KeptStamped(cands, ExistingUrls(store), stamp);
    AppendStamped(store, FrameColumns(cands), KeepNew(cands, ExistingUrls(store)), stamp);
  }

  /** The messages that follow a write: one per recipient, in list order,
      each under the fixed subject, reporting the number of listings added
      and linking the sheet. */
  lemma PublishNotifies(cands: seq<Listing>, store: Table, recipients: seq<string>, id: string)
    requires FindsNew(cands, store)
    ensures var o := Publish(cands, store, MailTo(recipients, id));
            && |o.emails| == |recipients|
            && forall k :: 0 <= k < |recipients| ==>
                 && o.emails[k].recipient == recipients[k]
                 && o.emails[k].subject == Subject
                 && ReportedCount(o.emails[k].body) == Some(o.status.added)
                 && Contains(o.emails[k].body, SheetLink(id))
  {
    var o := Publish(cands, store, MailTo(recipients, id));
    BodyReportsCount(o.status.added, id);
    BodyLinksSheet(o.status.added, id);
  }

  /** Running again with the same candidates against the table just written
      adds nothing: no second write, no second message. */
  lemma RerunAddsNothing(cands: seq<Listing>, store: Table, notice: Notice)
    requires FindsNew(cands, store)
    ensures Publish(cands, Publish(cands, store, notice).writes[0], notice) == Outcome(Done(0), [], [])
  {
    var added := KeepNew(cands, ExistingUrls(store));
    var t := Append(store, FrameColumns(cands), added);
    assert Diff(cands, store) == Ok(added);
    assert Publish(cands, store, notice).writes[0] == t;
    FrameHasUrlIffCandidates(cands);
    AppendKeepsUrls(store, FrameColumns(cands), added);
    assert HasUrlColumn(t);
    forall l | l in cands ensures l.url in ExistingUrls(t) {
      if l.url !in ExistingUrls(store) {
        assert l in added;
      }
    }
    assert Diff(cands, t) == Ok(KeepNew(cands, ExistingUrls(t)));
  }

  /** A sheet with one record, and a run finding that record again at a new
      price next to one unknown listing: only the unknown listing is added,
      the sheet gains exactly one row, and the message reports one listing. */
  lemma ChangedPriceIsNotNew(stamp: string, recipients: seq<string>, id: string)
    ensures var store := Table([UrlKey, AddressKey, PriceKey],
                               [map[UrlKey := "https://site/1", AddressKey := "Foo", PriceKey := "€300,000"]]);
            var seen := Listing("Foo", "https://site/1", Missing, Missing, "€310,000", stamp);
            var other := Listing("Bar", "https://site/2", Missing, Missing, "€200,000", stamp);
            var o := Publish([seen, other], store, MailTo(recipients, id));
            && o.status == Done(1)
            && |o.writes| == 1 && |o.writes[0].rows| == 2
            && o.writes[0].rows[1][UrlKey] == "https://site/2"
            && |o.emails| == |recipients|
            && forall e :: e in o.emails ==> ReportedCount(e.body) == Some(1)
  {
    var store := Table([UrlKey, AddressKey, PriceKey],
                       [map[UrlKey := "https://site/1", AddressKey := "Foo", PriceKey := "€300,000"]]);
    var seen := Listing("Foo", "https://site/1", Missing, Missing, "€310,000", stamp);
    var other := Listing("Bar", "https://site/2", Missing, Missing, "€200,000", stamp);
    var urls := ExistingUrls(store);
    SingleRecordUrls(store.rows[0]);
    assert store.rows == [store.rows[0]];
    KeepsOnlyUnknown(seen, other, urls);
    assert FindsNew([seen, other], store);
    PublishedTable([seen, other], store, MailTo(recipients, id));
    NewRowsComeFromCandidates([seen, other], store, MailTo(recipients, id));
    PublishNotifies([seen, other], store, recipients, id);
  }

  /** The combined script's candidates: both pages built, the VBO page only
      after its readiness wait, then merged by index. */
  function CombinedCandidates(pararius: seq<ParariusItem>, vbo: Page<VboItem>, stamp: string)
    : (r: Result<seq<Listing>, Fault>)
    ensures vbo.NotReady? ==> r == Err(PageNotReady)
    ensures r.Ok? ==> (&& vbo.Loaded?
                       && CombinedParariusRecords(pararius, stamp).Ok?
                       && VboRecords(vbo.items, stamp).Ok?
                       && r.value == MergeByIndex(CombinedParariusRecords(pararius, stamp).value,
                                                  VboRecords(vbo.items, stamp).value))
    ensures vbo.Loaded? && CombinedParariusRecords(pararius, stamp).Err? ==>
              r == CombinedParariusRecords(pararius, stamp).PropagateFailure()
    ensures vbo.Loaded? && CombinedParariusRecords(pararius, stamp).Ok? && VboRecords(vbo.items, stamp).Ok? ==>
              r.Ok?
    ensures vbo.Loaded? && CombinedParariusRecords(pararius, stamp).Ok? && VboRecords(vbo.items, stamp).Err? ==>
              r == Err(VboRecords(vbo.items, stamp).error)
  {
    match vbo
    case NotReady => Err(PageNotReady)
    case Loaded(items) =>
      var p :- CombinedParariusRecords(pararius, stamp);
      var v :- VboRecords(items, stamp);
      Ok(MergeByIndex(p, v))
  }

  /** `combined_pyppeteer.py`: Pararius and VBO, merged by index, mailed to
      every configured recipient. */
  function RunCombined(sheet: Sheet, pararius: seq<ParariusItem>, vbo: Page<VboItem>, stamp: string,
                       config: string, id: string): (o: Outcome)
    ensures sheet.NoSpreadsheet? ==> o == Abort(SpreadsheetNotFound)
    ensures sheet.NoWorksheet? ==> o == Abort(WorksheetNotFound)
    ensures sheet.Opened? && vbo.NotReady? ==> o == Abort(PageNotReady)
    ensures o.status.Aborted? ==> o.writes == [] && o.emails == []
    ensures o.emails != [] ==> |o.writes| == 1 && |o.emails| == |Recipients(config)|
    ensures o.writes != [] ==> |o.emails| == |Recipients(config)|
    ensures sheet.Opened? && vbo.Loaded? && CombinedParariusRecords(pararius, stamp).Err? ==> o == Abort(CombinedParariusRecords(pararius, stamp).error)
    ensures sheet.Opened? && vbo.Loaded? && CombinedParariusRecords(pararius, stamp).Ok? && VboRecords(vbo.items, stamp).Err? ==> o == Abort(VboRecords(vbo.items, stamp).error)
    ensures sheet.Opened? && vbo.Loaded? && CombinedParariusRecords(pararius, stamp).Ok? && VboRecords(vbo.items, stamp).Ok? ==>
              (o.writes != [] <==> FindsNew(MergeByIndex(CombinedParariusRecords(pararius, stamp).value, VboRecords(vbo.items, stamp).value), sheet.snapshot))
  {
    Run(sheet, CombinedCandidates(pararius, vbo, stamp), MailTo(Recipients(config), id))
  }

  /** In the combined run, a Pararius listing at a position the VBO page also
      fills is never written, unless the sheet already had its URL or another
      surviving record shares it. */
  lemma CombinedNeverWritesShadowed(sheet: Sheet, pararius: seq<ParariusItem>, vbo: Page<VboItem>,
                                    stamp: string, config: string, id: string, k: nat)
    requires sheet.Opened? && vbo.Loaded?
    requires CombinedParariusRecords(pararius, stamp).Ok? && VboRecords(vbo.items, stamp).Ok?
    requires var p := CombinedParariusRecords(pararius, stamp).value;
             var v := VboRecords(vbo.items, stamp).value;
             && k < |p| && k < |v|
             && (forall j :: 0 <= j < |v| ==> v[j].url != p[k].url)
             && (forall j :: |v| <= j < |p| ==> p[j].url != p[k].url)
    ensures var o := RunCombined(sheet, pararius, vbo, stamp, config, id);
            var store := sheet.snapshot;
            o.writes != [] ==>
              forall i :: |store.rows| <= i < |o.writes[0].rows| ==>
                && UrlKey in o.writes[0].rows[i]
                && o.writes[0].rows[i][UrlKey] != CombinedParariusRecords(pararius, stamp).value[k].url
  {
    var p := CombinedParariusRecords(pararius, stamp).value;
    var v := VboRecords(vbo.items, stamp).value;
    var merged := MergeByIndex(p, v);
    var store := sheet.snapshot;
    var notice := MailTo(Recipients(config), id);
    assert CombinedCandidates(pararius, vbo, stamp) == Ok(merged);
    var o := RunCombined(sheet, pararius, vbo, stamp, config, id);
    assert o == Publish(merged, store, notice);
    if o.writes != [] {
      ShadowedParariusDropped(p, v, k);
      NewRowsAvoidUrl(merged, store, notice, p[k].url);
    }
  }

  /** In the combined run every written listing carries the one timestamp
      taken when the script started. */
  lemma CombinedStampsOnce(sheet: Sheet, pararius: seq<ParariusItem>, vbo: Page<VboItem>,
                           stamp: string, config: string, id: string)
    ensures var o := RunCombined(sheet, pararius, vbo, stamp, config, id);
            o.writes != [] ==>
              forall i :: |sheet.snapshot.rows| <= i < |o.writes[0].rows| ==>
                && TimestampKey in o.writes[0].rows[i]
                && o.writes[0].rows[i][TimestampKey] == stamp
  {
    var o := RunCombined(sheet, pararius, vbo, stamp, config, id);
    if o.writes != [] {
      var cands := CombinedCandidates(pararius, vbo, stamp);
      assert sheet.Opened? && cands.Ok?;
      var notice := MailTo(Recipients(config), id);
      assert o == Publish(cands.value, sheet.snapshot, notice);
      CombinedCandidatesStamped(pararius, vbo, stamp);
      NewRowsStamped(cands.value, sheet.snapshot, notice, stamp);
    }
  }

  /** Running the combined script again on the same pages against the sheet
      it just wrote adds nothing and sends nothing. */
  lemma CombinedRerunAddsNothing(sheet: Sheet, pararius: seq<ParariusItem>, vbo: Page<VboItem>,
                                 stamp: string, config: string, id: string)
    requires RunCombined(sheet, pararius, vbo, stamp, config, id).writes != []
    ensures var t := RunCombined(sheet, pararius, vbo, stamp, config, id).writes[0];
            RunCombined(Opened(t), pararius, vbo, stamp, config, id) == Outcome(Done(0), [], [])
  {
    var cands := CombinedCandidates(pararius, vbo, stamp);
    assert sheet.Opened? && cands.Ok?;
    var notice := MailTo(Recipients(config), id);
    assert RunCombined(sheet, pararius, vbo, stamp, config, id) == Publish(cands.value, sheet.snapshot, notice);
    RerunAddsNothing(cands.value, sheet.snapshot, notice);
  }

  /** Both pages of the combined script stamp every record with the one
      script-start time, and so does their merge. */
  lemma CombinedCandidatesStamped(pararius: seq<ParariusItem>, vbo: Page<VboItem>, stamp: string)
    ensures var r := CombinedCandidates(pararius, vbo, stamp);
            r.Ok? ==> forall l :: l in r.value ==> l.timestamp == stamp
  {
    var r := CombinedCandidates(pararius, vbo, stamp);
    if r.Ok? {
      var p := CombinedParariusRecords(pararius, stamp).value;
      var v := VboRecords(vbo.items, stamp).value;
      CombinedParariusShape(pararius, stamp);
      VboRecordsShape(vbo.items, stamp);
      MergeByIndexInvents(p, v);
    }
  }

  /** The combined script's candidates as evidently intended: both pages
      built as before, then concatenated instead of merged by index. */
  function CombinedCandidatesIntended(pararius: seq<ParariusItem>, vbo: Page<VboItem>, stamp: string)
    : (r: Result<seq<Listing>, Fault>)
    ensures vbo.NotReady? ==> r == Err(PageNotReady)
    ensures r.Ok? ==> (&& vbo.Loaded?
                       && CombinedParariusRecords(pararius, stamp).Ok?
                       && VboRecords(vbo.items, stamp).Ok?
                       && multiset(r.value) == multiset(CombinedParariusRecords(pararius, stamp).value)
                                               + multiset(VboRecords(vbo.items, stamp).value))
    ensures vbo.Loaded? && CombinedParariusRecords(pararius, stamp).Err? ==>
              r == Err(CombinedParariusRecords(pararius, stamp).error)
    ensures vbo.Loaded? && CombinedParariusRecords(pararius, stamp).Ok? && VboRecords(vbo.items, stamp).Ok? ==>
              r == Ok(MergeConcat(CombinedParariusRecords(pararius, stamp).value, VboRecords(vbo.items, stamp).value))
    ensures vbo.Loaded? && CombinedParariusRecords(pararius, stamp).Ok? && VboRecords(vbo.items, stamp).Err? ==>
              r == Err(VboRecords(vbo.items, stamp).error)
  {
    match vbo
    case NotReady => Err(PageNotReady)
    case Loaded(items) =>
      var p :- CombinedParariusRecords(pararius, stamp);
      var v :- VboRecords(items, stamp);
      ConcatKeepsEverySource(p, v);
      Ok(MergeConcat(p, v))
  }

  /** The combined run with the intended concatenation in place of the
      index merge. */
  function RunCombinedIntended(sheet: Sheet, pararius: seq<ParariusItem>, vbo: Page<VboItem>, stamp: string,
                               config: string, id: string): (o: Outcome)
    ensures sheet.NoSpreadsheet? ==> o == Abort(SpreadsheetNotFound)
    ensures sheet.NoWorksheet? ==> o == Abort(WorksheetNotFound)
    ensures sheet.Opened? && vbo.NotReady? ==> o == Abort(PageNotReady)
    ensures o.status.Aborted? ==> o.writes == [] && o.emails == []
    ensures o.emails != [] ==> |o.writes| == 1 && |o.emails| == |Recipients(config)|
    ensures o.writes != [] ==> |o.emails| == |Recipients(config)|
    ensures sheet.Opened? && vbo.Loaded? && CombinedParariusRecords(pararius, stamp).Err? ==> o == Abort(CombinedParariusRecords(pararius, stamp).error)
    ensures sheet.Opened? && vbo.Loaded? && CombinedParariusRecords(pararius, stamp).Ok? && VboRecords(vbo.items, stamp).Err? ==> o == Abort(VboRecords(vbo.items, stamp).error)
    ensures sheet.Opened? && vbo.Loaded? && CombinedParariusRecords(pararius, stamp).Ok? && VboRecords(vbo.items, stamp).Ok? ==>
              (o.writes != [] <==> FindsNew(MergeConcat(CombinedParariusRecords(pararius, stamp).value, VboRecords(vbo.items, stamp).value), sheet.snapshot))
  {
    Run(sheet, CombinedCandidatesIntended(pararius, vbo, stamp), MailTo(Recipients(config), id))
  }

  /** With the intended concatenation, a Pararius record with a URL that is
      new to the sheet is written even when the VBO page fills its
      position. */
  lemma IntendedRunWritesEveryNewListing(sheet: Sheet, pararius: seq<ParariusItem>, vbo: Page<VboItem>,
                                         stamp: string, config: string, id: string, l: Listing)
    requires sheet.Opened? && CombinedCandidatesIntended(pararius, vbo, stamp).Ok?
    requires l in CombinedParariusRecords(pararius, stamp).value || l in VboRecords(vbo.items, stamp).value
    requires HasUrlColumn(sheet.snapshot) && l.url !in ExistingUrls(sheet.snapshot)
    ensures var o := RunCombinedIntended(sheet, pararius, vbo, stamp, config, id);
            && o.writes != []
            && l in KeepNew(CombinedCandidatesIntended(pararius, vbo, stamp).value, ExistingUrls(sheet.snapshot))
  {
    var cands := CombinedCandidatesIntended(pararius, vbo, stamp).value;
    assert multiset(cands)[l] > 0;
    assert l in cands;
    var notice := MailTo(Recipients(config), id);
    assert RunCombinedIntended(sheet, pararius, vbo, stamp, config, id) == Publish(cands, sheet.snapshot, notice);
    assert Diff(cands, sheet.snapshot) == Ok(KeepNew(cands, ExistingUrls(sheet.snapshot)));
  }

  /** The VBO page's candidates, after its readiness wait. */
  function VboCandidates(page: Page<VboItem>, stamp: string): (r: Result<seq<Listing>, Fault>)
    ensures page.NotReady? ==> r == Err(PageNotReady)
    ensures page.Loaded? ==> r == VboRecords(page.items, stamp)
  {
    match page
    case NotReady => Err(PageNotReady)
    case Loaded(items) => VboRecords(items, stamp)
  }

  /** `vbo_pyppeteer.py`: the VBO page alone, mailed to every configured
      recipient. */
  function RunVbo(sheet: Sheet, page: Page<VboItem>, stamp: string, config: string, id: string): (o: Outcome)
    ensures sheet.NoSpreadsheet? ==> o == Abort(SpreadsheetNotFound)
    ensures sheet.NoWorksheet? ==> o == Abort(WorksheetNotFound)
    ensures sheet.Opened? && page.NotReady? ==> o == Abort(PageNotReady)
    ensures o.status.Aborted? ==> o.writes == [] && o.emails == []
    ensures o.emails != [] ==> |o.writes| == 1 && |o.emails| == |Recipients(config)|
    ensures o.writes != [] ==> |o.emails| == |Recipients(config)|
    ensures sheet.Opened? && page.Loaded? && VboRecords(page.items, stamp).Err? ==> o == Abort(VboRecords(page.items, stamp).error)
    ensures sheet.Opened? && page.Loaded? && VboRecords(page.items, stamp).Ok? ==>
              (o.writes != [] <==> FindsNew(VboRecords(page.items, stamp).value, sheet.snapshot))
  {
    Run(sheet, VboCandidates(page, stamp), MailTo(Recipients(config), id))
  }

  /** A VBO run against an empty sheet, or on a page with no items, stops at
      the `URL` lookup before writing or sending anything. */
  lemma VboEmptyStoreOrPageAborts(snapshot: Table, items: seq<VboItem>, stamp: string, config: string, id: string)
    requires VboRecords(items, stamp).Ok?
    requires snapshot.rows == [] || items == []
    ensures RunVbo(Opened(snapshot), Loaded(items), stamp, config, id) == Abort(NoUrlColumn)
  {
    VboRecordsShape(items, stamp);
  }

  /** `pythonanywhere.py`: the Pararius page without a readiness wait, URLs
      prefixed, no size column, mailed to every configured recipient. */
  function RunAnywhere(sheet: Sheet, items: seq<ParariusItem>, stamp: string, config: string, id: string)
    : (o: Outcome)
    ensures sheet.NoSpreadsheet? ==> o == Abort(SpreadsheetNotFound)
    ensures sheet.NoWorksheet? ==> o == Abort(WorksheetNotFound)
    ensures o.status.Aborted? ==> o.writes == [] && o.emails == []
    ensures o.emails != [] ==> |o.writes| == 1 && |o.emails| == |Recipients(config)|
    ensures o.writes != [] ==> |o.emails| == |Recipients(config)|
    ensures sheet.Opened? && PrefixedParariusRecords(items, stamp).Err? ==> o == Abort(PrefixedParariusRecords(items, stamp).error)
    ensures sheet.Opened? && PrefixedParariusRecords(items, stamp).Ok? ==> (o.writes != [] <==> FindsNew(PrefixedParariusRecords(items, stamp).value, sheet.snapshot))
  {
    Run(sheet, PrefixedParariusRecords(items, stamp), MailTo(Recipients(config), id))
  }

  /** The Pararius page read through the Selenium driver, after its wait. */
  function DriverCandidates(page: Page<ParariusItem>, clock: nat -> string, withSize: bool)
    : (r: Result<seq<Listing>, Fault>)
    ensures page.NotReady? ==> r == Err(PageNotReady)
    ensures page.Loaded? && withSize ==> r == DriverRecordsWithSize(page.items, clock)
    ensures page.Loaded? && !withSize ==> r == DriverRecords(page.items, clock)
  {
    match page
    case NotReady => Err(PageNotReady)
    case Loaded(items) =>
      if withSize then DriverRecordsWithSize(items, clock) else DriverRecords(items, clock)
  }

  /** `pararius_selenium.py`: the Pararius page through the driver, size
      required, mailed to the single configured recipient. */
  function RunParariusSelenium(sheet: Sheet, page: Page<ParariusItem>, clock: nat -> string,
                               recipient: string, id: string): (o: Outcome)
    ensures sheet.NoSpreadsheet? ==> o == Abort(SpreadsheetNotFound)
    ensures sheet.NoWorksheet? ==> o == Abort(WorksheetNotFound)
    ensures sheet.Opened? && page.NotReady? ==> o == Abort(PageNotReady)
    ensures o.status.Aborted? ==> o.writes == [] && o.emails == []
    ensures o.emails != [] ==> |o.writes| == 1 && |o.emails| == 1 && o.emails[0].recipient == recipient
    ensures o.writes != [] ==> |o.emails| == 1
    ensures sheet.Opened? && page.Loaded? && DriverRecordsWithSize(page.items, clock).Err? ==> o == Abort(DriverRecordsWithSize(page.items, clock).error)
    ensures sheet.Opened? && page.Loaded? && DriverRecordsWithSize(page.items, clock).Ok? ==>
              (o.writes != [] <==> FindsNew(DriverRecordsWithSize(page.items, clock).value, sheet.snapshot))
  {
    Run(sheet, DriverCandidates(page, clock, true), MailTo([recipient], id))
  }

  /** In the Selenium run one item without a surface-area element stops the
      run, whatever the other items hold. */
  lemma SeleniumMissingSizeAborts(snapshot: Table, items: seq<ParariusItem>, clock: nat -> string,
                                  recipient: string, id: string, k: nat)
    requires k < |items| && items[k].surfaceArea.None?
    ensures RunParariusSelenium(Opened(snapshot), Loaded(items), clock, recipient, id) == Abort(MissingElement)
  {
    var build := (item: ParariusItem, index: nat) => ParariusDriverWithSize(item, clock(index));
    var r := DriverRecordsWithSize(items, clock);
    assert r == BuildAll(items, build, 1);
    assert build(items[k], 1 + k) == ParariusDriverWithSize(items[k], clock(1 + k));
    assert build(items[k], 1 + k).Err?;
    var j :| && 0 <= j < |items|
             && build(items[j], 1 + j) == Err(r.error);
    assert build(items[j], 1 + j) == ParariusDriverWithSize(items[j], clock(1 + j));
    assert r.error == MissingElement;
    assert DriverCandidates(Loaded(items), clock, true) == r;
  }

  /** `main.py`: the Pararius page through the driver, no size, no message. */
  function RunMain(sheet: Sheet, page: Page<ParariusItem>, clock: nat -> string): (o: Outcome)
    ensures sheet.NoSpreadsheet? ==> o == Abort(SpreadsheetNotFound)
    ensures sheet.NoWorksheet? ==> o == Abort(WorksheetNotFound)
    ensures sheet.Opened? && page.NotReady? ==> o == Abort(PageNotReady)
    ensures o.emails == []
    ensures |o.writes| <= 1 && (o.writes != [] ==> o.status.Done? && o.status.added > 0)
    ensures sheet.Opened? && page.Loaded? && DriverRecords(page.items, clock).Err? ==> o == Abort(DriverRecords(page.items, clock).error)
    ensures sheet.Opened? && page.Loaded? && DriverRecords(page.items, clock).Ok? ==>
              (o.writes != [] <==> FindsNew(DriverRecords(page.items, clock).value, sheet.snapshot))
  {
    Run(sheet, DriverCandidates(page, clock, false), Silent)
  }
}

=== FILE: seqs.dfy ===
/** Small facts about slicing and concatenating sequences, stated once here
    so that the proofs about strings, records and tables can cite them
    without re-deriving sequence algebra in a larger context. */
module Seqs {
  /** A prefix of a suffix is a slice. */
  lemma SliceOfSlice<T>(s: seq<T>, lo: nat, n: nat)
    requires lo + n <= |s|
    ensures s[lo..][..n] == s[lo..lo + n]
  {
  }

  /** A prefix of a prefix is a prefix. */
  lemma PrefixOfPrefix<T>(s: seq<T>, m: nat, n: nat)
    requires m <= n <= |s|
    ensures s[..m] == s[..n][..m]
  {
  }

  /** The prefix one longer ends with the next element. */
  lemma PrefixSnoc<T>(s: seq<T>, k: nat)
    requires k < |s|
    ensures s[..k + 1] == s[..k] + [s[k]]
  {
  }

  /** A sequence is what lies before an index, the element there, and what
      lies after it. */
  lemma AroundIndex<T>(s: seq<T>, i: nat)
    requires i < |s|
    ensures s == s[..i] + [s[i]] + s[i + 1..]
  {
  }

  /** The length, head and tail of a sequence built with one leading
      element. */
  lemma ConsParts<T>(x: T, rest: seq<T>)
    ensures |[x] + rest| == |rest| + 1 && ([x] + rest)[0] == x && ([x] + rest)[1..] == rest
  {
  }

  /** The head of a concatenation is the head of its non-empty first part. */
  lemma HeadOfConcat<T>(a: seq<T>, b: seq<T>)
    requires a != []
    ensures (a + b)[0] == a[0]
  {
  }

  /** Splitting a concatenation at the length of its first part gives the
      two parts back. */
  lemma SplitAfterPrefix<T>(p: seq<T>, x: seq<T>)
    ensures (p + x)[..|p|] == p && (p + x)[|p|..] == x
  {
  }

  /** The pieces around one separating element `x`. */
  lemma SuffixAfter<T>(p: seq<T>, x: T, rest: seq<T>)
    ensures (p + [x] + rest)[..|p|] == p
    ensures (p + [x] + rest)[|p| + 1..] == rest
  {
    SplitAfterPrefix(p, [x] + rest);
    assert p + [x] + rest == p + ([x] + rest);
    ConsParts(x, rest);
  }

  /** Moving the first element of `b` across the `+` changes nothing. */
  lemma ShiftHead<T>(a: seq<T>, b: seq<T>)
    requires b != []
    ensures a + [b[0]] + b[1..] == a + b
  {
  }

  /** Appending an element to a non-empty sequence keeps its head and
      appends to its tail. */
  lemma SnocTail<T>(s: seq<T>, x: T)
    requires s != []
    ensures (s + [x])[0] == s[0] && (s + [x])[1..] == s[1..] + [x]
  {
  }

  /** Concatenation is associative. */
  lemma Reassociate<T>(a: seq<T>, b: seq<T>, c: seq<T>)
    ensures a + (b + c) == (a + b) + c
  {
  }

  /** Four parts joined from the left equal the same parts joined from the
      right. */
  lemma Regroup<T>(a: seq<T>, b: seq<T>, c: seq<T>, d: seq<T>)
    ensures a + b + c + d == a + (b + (c + d))
  {
  }

  /** A concatenation of four parts starts with the first and ends with the
      last. */
  lemma EndsOfFour<T>(a: seq<T>, b: seq<T>, c: seq<T>, d: seq<T>)
    ensures |a| + |d| <= |a + b + c + d|
    ensures (a + b + c + d)[..|a|] == a
    ensures (a + b + c + d)[|a + b + c + d| - |d|..] == d
  {
  }

  /** The position of the first `x` in `s`. */
  function FirstAt<T(==)>(s: seq<T>, x: T): (i: nat)
    requires x in s
    ensures i < |s| && s[i] == x
    ensures forall j :: 0 <= j < i ==> s[j] != x
  {
    if s[0] == x then 0 else FirstAt(s[1..], x) + 1
  }
}

=== FILE: sources.dfy ===
/** The per-source record builders: how each script turns the items its
    parser (BeautifulSoup) or driver (Selenium) found into listing records.
    An item is reduced to the texts and attributes the script reads from it;
    `None` stands for a selector that matched nothing. */
module Sources {
  import opened Wrappers
  import opened Text
  import opened Listings

  /** Prefix the BeautifulSoup Pararius scripts put before the relative href. */
  const ParariusBase := "https://www.pararius.nl"
  /** Label of the VBO feature line that carries the living area. */
  const SizeLabel := "Woonoppervlakte"
  /** What the combined script records when a Pararius item shows no area. */
  const NoSize := "N/A"

  /** An `li.search-list__item--listing` element of a Pararius result page:
      the title link's text, the depiction link's `href`, the price text and
      the surface-area feature's text. */
  datatype ParariusItem = ParariusItem(
    title: Option<string>,
    depictionHref: Option<string>,
    price: Option<string>,
    surfaceArea: Option<string>)

  /** An `a.propertyLink` element of a VBO result page: its `href`, the texts
      of its street, price and energy-label spans, and the text of each of
      its `li` elements in document order. */
  datatype VboItem = VboItem(
    href: Option<string>,
    street: Option<string>,
    price: Option<string>,
    energyLabel: Option<string>,
    features: seq<string>)

  /** Pararius record of the combined script: prefixed URL and a size that
      defaults to "N/A". */
  function ParariusWithSize(item: ParariusItem, stamp: string): (r: Result<Listing, Fault>)
    ensures r.Ok? <==> item.title.Some? && item.depictionHref.Some? && item.price.Some?
    ensures r.Err? ==> r.error == MissingElement
    ensures r.Ok? ==> r.value.address == Strip(item.title.value) && r.value.price == Strip(item.price.value)
    ensures r.Ok? ==> (&& StartsWith(r.value.url, ParariusBase)
                       && r.value.url[|ParariusBase|..] == item.depictionHref.value)
    ensures r.Ok? && item.surfaceArea.None? ==> r.value.size == Text(NoSize)
    ensures r.Ok? && item.surfaceArea.Some? ==>
              r.value.size == Text(Strip(item.surfaceArea.value))
    ensures r.Ok? ==> r.value.energyLabel.Missing? && r.value.timestamp == stamp
  {
    if item.title.None? || item.depictionHref.None? then Err(MissingElement)
    else
      var size := if item.surfaceArea.Some? then Strip(item.surfaceArea.value) else NoSize;
      if item.price.None? then Err(MissingElement)
      else Ok(Listing(Strip(item.title.value), ParariusBase + item.depictionHref.value,
                      Text(size), Missing, Strip(item.price.value), stamp))
  }

  /** Pararius record of the PythonAnywhere script: prefixed URL and no size
      key at all. */
  function ParariusPrefixed(item: ParariusItem, stamp: string): (r: Result<Listing, Fault>)
    ensures r.Ok? <==> item.title.Some? && item.depictionHref.Some? && item.price.Some?
    ensures r.Err? ==> r.error == MissingElement
    ensures r.Ok? ==> r.value.address == Strip(item.title.value) && r.value.price == Strip(item.price.value)
    ensures r.Ok? ==> (&& StartsWith(r.value.url, ParariusBase)
                       && r.value.url[|ParariusBase|..] == item.depictionHref.value)
    ensures r.Ok? ==> Columns(r.value) == [AddressKey, UrlKey, PriceKey, TimestampKey]
    ensures r.Ok? ==> r.value.timestamp == stamp
  {
    if item.title.None? || item.depictionHref.None? || item.price.None? then Err(MissingElement)
    else
      var l := Listing(Strip(item.title.value), ParariusBase + item.depictionHref.value,
                       Missing, Missing, Strip(item.price.value), stamp);
      ColumnsOfBare(l);
      Ok(l)
  }

  /** Pararius record of the Selenium script: the driver's `href` as is, and
      a mandatory size whose absence raises. */
  function ParariusDriverWithSize(item: ParariusItem, stamp: string): (r: Result<Listing, Fault>)
    ensures r.Ok? <==> item.title.Some? && item.depictionHref.Some? && item.price.Some?
                       && item.surfaceArea.Some?
    ensures r.Err? ==> r.error == MissingElement
    ensures r.Ok? ==> r.value.address == Strip(item.title.value) && r.value.price == Strip(item.price.value)
    ensures r.Ok? ==> r.value.url == item.depictionHref.value
    ensures r.Ok? ==> r.value.size == Text(Strip(item.surfaceArea.value))
    ensures r.Ok? ==> r.value.energyLabel.Missing? && r.value.timestamp == stamp
  {
    if item.title.None? || item.depictionHref.None? || item.price.None? || item.surfaceArea.None? then
      Err(MissingElement)
    else
      Ok(Listing(Strip(item.title.value), item.depictionHref.value, Text(Strip(item.surfaceArea.value)),
                 Missing, Strip(item.price.value), stamp))
  }

  /** Pararius record of the plain Selenium script: the driver's `href` as is
      and no size key. */
  function ParariusDriver(item: ParariusItem, stamp: string): (r: Result<Listing, Fault>)
    ensures r.Ok? <==> item.title.Some? && item.depictionHref.Some? && item.price.Some?
    ensures r.Err? ==> r.error == MissingElement
    ensures r.Ok? ==> r.value.address == Strip(item.title.value) && r.value.price == Strip(item.price.value)
    ensures r.Ok? ==> r.value.url == item.depictionHref.value
    ensures r.Ok? ==> Columns(r.value) == [AddressKey, UrlKey, PriceKey, TimestampKey]
    ensures r.Ok? ==> r.value.timestamp == stamp
  {
    if item.title.None? || item.depictionHref.None? || item.price.None? then Err(MissingElement)
    else
      var l := Listing(Strip(item.title.value), item.depictionHref.value, Missing, Missing,
                       Strip(item.price.value), stamp);
      ColumnsOfBare(l);
      Ok(l)
  }

  /** The `li` line `k` mentions the size label. */
  predicate IsSizeLine(features: seq<string>, k: int) {
    0 <= k < |features| && Contains(features[k], SizeLabel)
  }

  /** The first `li` whose text mentions the size label; the scan stops there. */
  function FirstSizeLine(features: seq<string>): (r: Option<nat>)
    ensures r.None? <==> forall k :: 0 <= k < |features| ==> !IsSizeLine(features, k)
    ensures r.Some? ==> (&& IsSizeLine(features, r.value)
                         && forall k :: 0 <= k < r.value ==> !IsSizeLine(features, k))
  {
    if |features| == 0 then None
    else if Contains(features[0], SizeLabel) then
      assert IsSizeLine(features, 0);
      Some(0)
    else
      assert forall k :: 0 < k < |features| ==>
               (IsSizeLine(features, k) <==> IsSizeLine(features[1..], k - 1)) by {
        forall k | 0 < k < |features|
          ensures IsSizeLine(features, k) <==> IsSizeLine(features[1..], k - 1)
        {
          assert features[1..][k - 1] == features[k];
        }
      }
      assert !IsSizeLine(features, 0);
      match FirstSizeLine(features[1..])
      case None => None
      case Some(k) =>
        assert IsSizeLine(features, k + 1);
        Some(k + 1)
  }

  /** VBO size: the stripped second `:`-piece of the first size line; `None`
      when no line mentions the label; `IndexError` when that line has no
      colon. */
  function VboSize(features: seq<string>): (r: Result<Cell, Fault>)
    ensures r == Ok(Null) <==> FirstSizeLine(features).None?
    ensures r.Err? <==> FirstSizeLine(features).Some?
                        && ':' !in features[FirstSizeLine(features).value]
    ensures r.Err? ==> r.error == SizeWithoutColon
    ensures r.Ok? ==> !r.value.Missing?
    ensures r.Ok? && r.value.Text? ==>
              var line := features[FirstSizeLine(features).value];
              r.value.text == Strip(Split(line, ':')[1]) && ':' !in r.value.text
  {
    match FirstSizeLine(features)
    case None => Ok(Null)
    case Some(k) =>
      var parts := Split(features[k], ':');
      SplitHasMoreThanOnePiece(features[k], ':');
      if |parts| < 2 then
        Err(SizeWithoutColon)
      else
        var size := Strip(parts[1]);
        assert ':' !in size by { SliceOmits(size, parts[1], ':'); }
        Ok(Text(size))
  }

  /** What whitespace stripping keeps of a string is a part of it. */
  lemma SliceOmits(r: string, s: string, c: char)
    requires IsStripOf(r, s) && c !in s
    ensures c !in r
  {
    var lo :| StripWindow(r, s, lo);
    forall i | 0 <= i < |r| ensures r[i] != c {
      assert r[i] == s[lo + i];
    }
  }

  /** VBO record: the anchor's `href` as is, a size from the feature lines and
      an energy label that is always present. */
  function VboRecord(item: VboItem, stamp: string): (r: Result<Listing, Fault>)
    ensures r.Ok? <==> (&& item.href.Some? && item.street.Some? && item.price.Some?
                        && item.energyLabel.Some? && VboSize(item.features).Ok?)
    ensures r.Err? ==> (r.error == SizeWithoutColon <==>
                          && item.href.Some? && item.street.Some?
                          && item.price.Some? && item.energyLabel.Some?)
    ensures r.Err? && !(item.href.Some? && item.street.Some? && item.price.Some? && item.energyLabel.Some?) ==>
              r.error == MissingElement
    ensures r.Ok? ==> r.value.url == item.href.value && r.value.size == VboSize(item.features).value
    ensures r.Ok? ==> r.value.energyLabel == Text(Strip(item.energyLabel.value))
    ensures r.Ok? ==> r.value.address == Strip(item.street.value) && r.value.price == Strip(item.price.value)
    ensures r.Ok? ==> Columns(r.value) == [AddressKey, UrlKey, SizeKey, EnergyKey, PriceKey, TimestampKey]
    ensures r.Ok? ==> r.value.timestamp == stamp
  {
    if item.href.None? || item.street.None? || item.price.None? || item.energyLabel.None? then
      Err(MissingElement)
    else
      var size :- VboSize(item.features);
      var l := Listing(Strip(item.street.value), item.href.value, size,
                       Text(Strip(item.energyLabel.value)), Strip(item.price.value), stamp);
      ColumnsOfFull(l);
      Ok(l)
  }

  /** The `for index, item in enumerate(items, start=...)` loop: one record per
      item in document order, the item with index `start + k` built by
      `build(items[k], start + k)`; the first item that raises ends the loop
      and the run. */
  function BuildAll<T>(items: seq<T>, build: (T, nat) -> Result<Listing, Fault>, start: nat)
    : (r: Result<seq<Listing>, Fault>)
    ensures r.Ok? <==> forall k :: 0 <= k < |items| ==> build(items[k], start + k).Ok?
    ensures r.Ok? ==> (&& |r.value| == |items|
                       && forall k :: 0 <= k < |items| ==> build(items[k], start + k) == Ok(r.value[k]))
    ensures r.Err? ==> exists k :: FailsFirstAt(items, build, start, k, r.error)
    decreases |items|
  {
    if |items| == 0 then Ok([])
    else
      match build(items[0], start)
      case Err(e) =>
        assert FailsFirstAt(items, build, start, 0, e);
        Err(e)
      case Ok(first) =>
        match BuildAll(items[1..], build, start + 1)
        case Err(e) =>
          ghost var k :| FailsFirstAt(items[1..], build, start + 1, k, e);
          FailureShifts(items, build, start, k, e);
          Err(e)
        case Ok(rest) =>
          SuccessShifts(items, build, start, first, rest);
          Ok([first] + rest)
  }

  /** Item `k` is the first whose build fails, and it fails with `e`. */
  ghost predicate FailsFirstAt<T>(items: seq<T>, build: (T, nat) -> Result<Listing, Fault>, start: nat, k: int, e: Fault) {
    && 0 <= k < |items|
    && build(items[k], start + k) == Err(e)
    && forall j :: 0 <= j < k ==> build(items[j], start + j).Ok?
  }

  lemma FailureShifts<T>(items: seq<T>, build: (T, nat) -> Result<Listing, Fault>, start: nat, k: int, e: Fault)
    requires items != [] && build(items[0], start).Ok?
    requires FailsFirstAt(items[1..], build, start + 1, k, e)
    ensures FailsFirstAt(items, build, start, k + 1, e)
  {
    assert items[k + 1] == items[1..][k];
    forall j | 0 <= j < k + 1 ensures build(items[j], start + j).Ok? {
      if j > 0 {
        assert items[j] == items[1..][j - 1];
      }
    }
  }

  lemma SuccessShifts<T>(items: seq<T>, build: (T, nat) -> Result<Listing, Fault>, start: nat,
                         first: Listing, rest: seq<Listing>)
    requires items != [] && build(items[0], start) == Ok(first) && |rest| == |items| - 1
    requires forall k :: 0 <= k < |items| - 1 ==> build(items[1..][k], start + 1 + k) == Ok(rest[k])
    ensures forall k :: 0 <= k < |items| ==> build(items[k], start + k) == Ok(([first] + rest)[k])
  {
    forall k | 0 <= k < |items| ensures build(items[k], start + k) == Ok(([first] + rest)[k]) {
      if k > 0 {
        assert items[k] == items[1..][k - 1];
      }
    }
  }

  /** Pararius records of the combined script, all stamped with the time
      taken once when the script starts. */
  function CombinedParariusRecords(items: seq<ParariusItem>, stamp: string): (r: Result<seq<Listing>, Fault>)
    ensures r.Ok? <==> forall k :: 0 <= k < |items| ==> ParariusWithSize(items[k], stamp).Ok?
    ensures r.Ok? ==> (&& |r.value| == |items|
                       && forall k :: 0 <= k < |items| ==> ParariusWithSize(items[k], stamp) == Ok(r.value[k]))
    ensures r.Err? ==> exists k :: (&& 0 <= k < |items| && ParariusWithSize(items[k], stamp) == Err(r.error)
                                    && forall j :: 0 <= j < k ==> ParariusWithSize(items[j], stamp).Ok?)
  {
    var build := (item: ParariusItem, index: nat) => ParariusWithSize(item, stamp);
    var r := BuildAll(items, build, 1);
    assert r.Err? ==> exists k :: (&& 0 <= k < |items| && ParariusWithSize(items[k], stamp) == Err(r.error)
                                   && forall j :: 0 <= j < k ==> ParariusWithSize(items[j], stamp).Ok?) by {
      if r.Err? {
        var k :| FailsFirstAt(items, build, 1, k, r.error);
        assert ParariusWithSize(items[k], stamp) == Err(r.error);
      }
    }
    r
  }

  /** VBO records of the combined script and of the VBO script. */
  function VboRecords(items: seq<VboItem>, stamp: string): (r: Result<seq<Listing>, Fault>)
    ensures r.Ok? <==> forall k :: 0 <= k < |items| ==> VboRecord(items[k], stamp).Ok?
    ensures r.Ok? ==> (&& |r.value| == |items|
                       && forall k :: 0 <= k < |items| ==> VboRecord(items[k], stamp) == Ok(r.value[k]))
    ensures r.Err? ==> exists k :: (&& 0 <= k < |items| && VboRecord(items[k], stamp) == Err(r.error)
                                    && forall j :: 0 <= j < k ==> VboRecord(items[j], stamp).Ok?)
  {
    var build := (item: VboItem, index: nat) => VboRecord(item, stamp);
    var r := BuildAll(items, build, 1);
    assert r.Err? ==> exists k :: (&& 0 <= k < |items| && VboRecord(items[k], stamp) == Err(r.error)
                                   && forall j :: 0 <= j < k ==> VboRecord(items[j], stamp).Ok?) by {
      if r.Err? {
        var k :| FailsFirstAt(items, build, 1, k, r.error);
        assert VboRecord(items[k], stamp) == Err(r.error);
      }
    }
    r
  }

  /** Pararius records of the PythonAnywhere script. */
  function PrefixedParariusRecords(items: seq<ParariusItem>, stamp: string): (r: Result<seq<Listing>, Fault>)
    ensures r.Ok? <==> forall k :: 0 <= k < |items| ==> ParariusPrefixed(items[k], stamp).Ok?
    ensures r.Ok? ==> (&& |r.value| == |items|
                       && forall k :: 0 <= k < |items| ==> ParariusPrefixed(items[k], stamp) == Ok(r.value[k]))
    ensures r.Err? ==> exists k :: (&& 0 <= k < |items| && ParariusPrefixed(items[k], stamp) == Err(r.error)
                                    && forall j :: 0 <= j < k ==> ParariusPrefixed(items[j], stamp).Ok?)
  {
    var build := (item: ParariusItem, index: nat) => ParariusPrefixed(item, stamp);
    var r := BuildAll(items, build, 1);
    assert r.Err? ==> exists k :: (&& 0 <= k < |items| && ParariusPrefixed(items[k], stamp) == Err(r.error)
                                   && forall j :: 0 <= j < k ==> ParariusPrefixed(items[j], stamp).Ok?) by {
      if r.Err? {
        var k :| FailsFirstAt(items, build, 1, k, r.error);
        assert ParariusPrefixed(items[k], stamp) == Err(r.error);
      }
    }
    r
  }

  /** Pararius records of the Selenium script with size; `clock(index)` is
      the time read while building the record with that index. */
  function DriverRecordsWithSize(items: seq<ParariusItem>, clock: nat -> string): (r: Result<seq<Listing>, Fault>)
    ensures r.Ok? <==> forall k :: 0 <= k < |items| ==> ParariusDriverWithSize(items[k], clock(1 + k)).Ok?
    ensures r.Ok? ==> (&& |r.value| == |items|
                       && forall k :: 0 <= k < |items| ==> ParariusDriverWithSize(items[k], clock(1 + k)) == Ok(r.value[k]))
    ensures r.Err? ==> exists k :: (&& 0 <= k < |items| && ParariusDriverWithSize(items[k], clock(1 + k)) == Err(r.error)
                                    && forall j :: 0 <= j < k ==> ParariusDriverWithSize(items[j], clock(1 + j)).Ok?)
  {
    var build := (item: ParariusItem, index: nat) => ParariusDriverWithSize(item, clock(index));
    var r := BuildAll(items, build, 1);
    assert r.Err? ==> exists k :: (&& 0 <= k < |items| && ParariusDriverWithSize(items[k], clock(1 + k)) == Err(r.error)
                                   && forall j :: 0 <= j < k ==> ParariusDriverWithSize(items[j], clock(1 + j)).Ok?) by {
      if r.Err? {
        var k :| FailsFirstAt(items, build, 1, k, r.error);
        assert ParariusDriverWithSize(items[k], clock(1 + k)) == Err(r.error);
      }
    }
    r
  }

  /** Pararius records of the plain Selenium script. */
  function DriverRecords(items: seq<ParariusItem>, clock: nat -> string): (r: Result<seq<Listing>, Fault>)
    ensures r.Ok? <==> forall k :: 0 <= k < |items| ==> ParariusDriver(items[k], clock(1 + k)).Ok?
    ensures r.Ok? ==> (&& |r.value| == |items|
                       && forall k :: 0 <= k < |items| ==> ParariusDriver(items[k], clock(1 + k)) == Ok(r.value[k]))
    ensures r.Err? ==> exists k :: (&& 0 <= k < |items| && ParariusDriver(items[k], clock(1 + k)) == Err(r.error)
                                    && forall j :: 0 <= j < k ==> ParariusDriver(items[j], clock(1 + j)).Ok?)
  {
    var build := (item: ParariusItem, index: nat) => ParariusDriver(item, clock(index));
    var r := BuildAll(items, build, 1);
    assert r.Err? ==> exists k :: (&& 0 <= k < |items| && ParariusDriver(items[k], clock(1 + k)) == Err(r.error)
                                   && forall j :: 0 <= j < k ==> ParariusDriver(items[j], clock(1 + j)).Ok?) by {
      if r.Err? {
        var k :| FailsFirstAt(items, build, 1, k, r.error);
        assert ParariusDriver(items[k], clock(1 + k)) == Err(r.error);
      }
    }
    r
  }

  /** The combined script's Pararius page: every record carries the shared
      run timestamp, a URL under the Pararius site, and a size. */
  lemma CombinedParariusShape(items: seq<ParariusItem>, stamp: string)
    ensures var r := CombinedParariusRecords(items, stamp);
            r.Ok? ==> (&& |r.value| == |items|
                       && forall k :: 0 <= k < |items| ==>
                           && r.value[k].timestamp == stamp
                           && StartsWith(r.value[k].url, ParariusBase)
                           && r.value[k].url[|ParariusBase|..] == items[k].depictionHref.value
                           && r.value[k].size.Text?)
  {
    var r := CombinedParariusRecords(items, stamp);
    if r.Ok? {
      forall k | 0 <= k < |items|
        ensures ParariusWithSize(items[k], stamp) == Ok(r.value[k])
      {
        var build := (item, index) => ParariusWithSize(item, stamp);
        assert build(items[k], 1 + k) == Ok(r.value[k]);
      }
    }
  }

  /** A page with one item lacking its price aborts the whole Pararius page
      even when every other item is complete: there is no per-item skipping. */
  lemma OneBrokenItemAbortsPage(items: seq<ParariusItem>, k: nat, stamp: string)
    requires k < |items| && items[k].price.None?
    ensures CombinedParariusRecords(items, stamp) == Err(MissingElement)
  {
    var build := (item, index) => ParariusWithSize(item, stamp);
    assert build(items[k], 1 + k).Err?;
  }

  /** The VBO page: records in item order, each URL the raw `href`, each with
      an energy label, all sharing the run timestamp. */
  lemma VboRecordsShape(items: seq<VboItem>, stamp: string)
    ensures var r := VboRecords(items, stamp);
            r.Ok? ==> (&& |r.value| == |items|
                       && forall k :: 0 <= k < |items| ==>
                           && r.value[k].url == items[k].href.value
                           && r.value[k].energyLabel.Text?
                           && r.value[k].timestamp == stamp)
  {
    var r := VboRecords(items, stamp);
    if r.Ok? {
      forall k | 0 <= k < |items|
        ensures VboRecord(items[k], stamp) == Ok(r.value[k])
      {
        var build := (item, index) => VboRecord(item, stamp);
        assert build(items[k], 1 + k) == Ok(r.value[k]);
      }
    }
  }

  /** The Selenium-with-size page: record `k` carries the `href` as the driver
      returned it, and the time read for index `k + 1`. */
  lemma DriverRecordsWithSizeShape(items: seq<ParariusItem>, clock: nat -> string)
    ensures var r := DriverRecordsWithSize(items, clock);
            && (r.Ok? <==> forall k :: 0 <= k < |items| ==>
                             && items[k].title.Some? && items[k].depictionHref.Some?
                             && items[k].price.Some? && items[k].surfaceArea.Some?)
            && (r.Ok? ==> && |r.value| == |items|
                          && forall k :: 0 <= k < |items| ==>
                               && r.value[k].url == items[k].depictionHref.value
                               && r.value[k].timestamp == clock(k + 1))
  {
    var r := DriverRecordsWithSize(items, clock);
    var build := (item: ParariusItem, index: nat) => ParariusDriverWithSize(item, clock(index));
    forall k | 0 <= k < |items|
      ensures build(items[k], 1 + k).Ok? <==>
                && items[k].title.Some? && items[k].depictionHref.Some?
                && items[k].price.Some? && items[k].surfaceArea.Some?
    {
      assert build(items[k], 1 + k) == ParariusDriverWithSize(items[k], clock(1 + k));
    }
    if r.Ok? {
      forall k | 0 <= k < |items|
        ensures ParariusDriverWithSize(items[k], clock(k + 1)) == Ok(r.value[k])
      {
        assert build(items[k], 1 + k) == Ok(r.value[k]);
      }
    }
  }

  /** The PythonAnywhere page: every record has exactly the address, URL,
      price and timestamp keys, a URL under the Pararius site, and the shared
      run timestamp. */
  lemma PrefixedParariusShape(items: seq<ParariusItem>, stamp: string)
    ensures var r := PrefixedParariusRecords(items, stamp);
            r.Ok? ==> (&& |r.value| == |items|
                       && forall k :: 0 <= k < |items| ==>
                           && Columns(r.value[k]) == [AddressKey, UrlKey, PriceKey, TimestampKey]
                           && r.value[k].url == ParariusBase + items[k].depictionHref.value
                           && r.value[k].timestamp == stamp)
  {
    var r := PrefixedParariusRecords(items, stamp);
    if r.Ok? {
      forall k | 0 <= k < |items|
        ensures ParariusPrefixed(items[k], stamp) == Ok(r.value[k])
      {
        var build := (item, index) => ParariusPrefixed(item, stamp);
        assert build(items[k], 1 + k) == Ok(r.value[k]);
      }
      forall k | 0 <= k < |items|
        ensures r.value[k].url == ParariusBase + items[k].depictionHref.value
      {
        var u := r.value[k].url;
        assert u == u[..|ParariusBase|] + u[|ParariusBase|..];
      }
    }
  }

  /** The plain Selenium page: record `k` has exactly the address, URL, price
      and timestamp keys, the `href` as the driver returned it, and the time
      read for index `k + 1`. */
  lemma DriverRecordsShape(items: seq<ParariusItem>, clock: nat -> string)
    ensures var r := DriverRecords(items, clock);
            r.Ok? ==> (&& |r.value| == |items|
                       && forall k :: 0 <= k < |items| ==>
                           && Columns(r.value[k]) == [AddressKey, UrlKey, PriceKey, TimestampKey]
                           && items[k].depictionHref.Some?
                           && r.value[k].url == items[k].depictionHref.value
                           && r.value[k].timestamp == clock(k + 1))
  {
    var r := DriverRecords(items, clock);
    if r.Ok? {
      var build := (item: ParariusItem, index: nat) => ParariusDriver(item, clock(index));
      forall k | 0 <= k < |items|
        ensures ParariusDriver(items[k], clock(k + 1)) == Ok(r.value[k])
      {
        assert build(items[k], 1 + k) == Ok(r.value[k]);
      }
    }
  }
}

=== FILE: store.dfy ===
/** The sheet as the scripts see it through pandas: a header and rows of
    string cells, the frame built from candidate records, and the table the
    scripts write back with `pd.concat(...).fillna("")`. */
module Store {
  import opened Wrappers
  import opened Seqs
  import opened Listings

  /** A worksheet: its header row and its records, each a dict from column
      name to cell text (what `get_all_records()` returns). */
  datatype Table = Table(header: seq<string>, rows: seq<map<string, string>>)

  /** From position `lo` on, `u` holds elements of `b`, each before any
      element that `b` first has later. */
  predicate InFirstOrder(u: seq<string>, lo: nat, b: seq<string>) {
    && (forall i :: lo <= i < |u| ==> u[i] in b)
    && (forall i, j :: lo <= i < j < |u| && u[i] in b && u[j] in b ==> FirstAt(b, u[i]) < FirstAt(b, u[j]))
  }

  /** From position `lo` on, `u` holds no element of `a`. */
  predicate NoneOfFrom(u: seq<string>, lo: nat, a: seq<string>) {
    forall i :: lo <= i < |u| ==> u[i] !in a
  }

  /** `a` followed by every element of `b` that is not already there, in the
      order `b` first has it: the column order of an outer `concat` of a frame
      with columns `a` and one with columns `b`. */
  function OrderedUnion(a: seq<string>, b: seq<string>): (u: seq<string>)
    ensures |a| <= |u| && u[..|a|] == a
    ensures forall x :: x in u <==> x in a || x in b
    ensures NoneOfFrom(u, |a|, a)
    ensures InFirstOrder(u, |a|, b)
    ensures Distinct(a) ==> Distinct(u)
    decreases |b|
  {
    if b == [] then a
    else if b[0] in a then
      var u := OrderedUnion(a, b[1..]);
      KnownHeadStep(a, b, u);
      u
    else
      var u := OrderedUnion(a + [b[0]], b[1..]);
      NewHeadStep(a, b, u);
      u
  }

  /** When `b[0]` is already in `a`, the union with `b[1..]` is the union
      with `b`. */
  lemma KnownHeadStep(a: seq<string>, b: seq<string>, u: seq<string>)
    requires b != [] && b[0] in a
    requires forall x :: x in u <==> x in a || x in b[1..]
    requires |a| <= |u| && NoneOfFrom(u, |a|, a) && InFirstOrder(u, |a|, b[1..])
    ensures forall x :: x in u <==> x in a || x in b
    ensures InFirstOrder(u, |a|, b)
  {
    assert b == [b[0]] + b[1..];
    assert forall i :: |a| <= i < |u| ==> u[i] != b[0];
    OrderBeyondHead(u, |a|, b);
  }

  /** When `b[0]` is new, the union of `a + [b[0]]` with `b[1..]` is the
      union of `a` with `b`. */
  lemma NewHeadStep(a: seq<string>, b: seq<string>, u: seq<string>)
    requires b != [] && b[0] !in a
    requires |a| + 1 <= |u| && u[..|a| + 1] == a + [b[0]]
    requires forall x :: x in u <==> x in a + [b[0]] || x in b[1..]
    requires NoneOfFrom(u, |a| + 1, a + [b[0]]) && InFirstOrder(u, |a| + 1, b[1..])
    requires Distinct(a + [b[0]]) ==> Distinct(u)
    ensures |a| <= |u| && u[..|a|] == a
    ensures forall x :: x in u <==> x in a || x in b
    ensures NoneOfFrom(u, |a|, a) && InFirstOrder(u, |a|, b)
    ensures Distinct(a) ==> Distinct(u)
  {
    PrefixOfPrefix(u, |a|, |a| + 1);
    assert (a + [b[0]])[..|a|] == a;
    assert u[|a|] == b[0] by {
      assert u[|a|] == u[..|a| + 1][|a|];
    }
    NewHeadMembers(a, b, u);
    NewHeadOrder(a, b, u);
    if Distinct(a) {
      DistinctSnoc(a, b[0]);
    }
  }

  /** Membership in the union with a new head. */
  lemma NewHeadMembers(a: seq<string>, b: seq<string>, u: seq<string>)
    requires b != []
    requires forall x :: x in u <==> x in a + [b[0]] || x in b[1..]
    ensures forall x :: x in u <==> x in a || x in b
  {
    assert b == [b[0]] + b[1..];
  }

  /** Order in the union with a new head. */
  lemma NewHeadOrder(a: seq<string>, b: seq<string>, u: seq<string>)
    requires b != [] && b[0] !in a
    requires |a| < |u| && u[|a|] == b[0]
    requires NoneOfFrom(u, |a| + 1, a + [b[0]]) && InFirstOrder(u, |a| + 1, b[1..])
    ensures NoneOfFrom(u, |a|, a) && InFirstOrder(u, |a|, b)
  {
    forall i | |a| + 1 <= i < |u| ensures u[i] != b[0] && u[i] !in a {
      assert u[i] !in a + [b[0]];
    }
    OrderBeyondHead(u, |a| + 1, b);
    OrderWithHead(u, |a|, b);
  }

  /** A duplicate-free sequence extended by an element it lacks is still
      duplicate-free. */
  lemma DistinctSnoc(a: seq<string>, x: string)
    requires Distinct(a) && x !in a
    ensures Distinct(a + [x])
  {
    forall i, j | 0 <= i < j < |a| + 1 ensures (a + [x])[i] != (a + [x])[j] {
      if j == |a| {
        assert (a + [x])[i] == a[i];
      }
    }
  }

  /** Elements other than `b[0]` ordered by first position in `b[1..]` are
      ordered by first position in `b`. */
  lemma OrderBeyondHead(u: seq<string>, lo: nat, b: seq<string>)
    requires b != [] && InFirstOrder(u, lo, b[1..])
    requires forall i :: lo <= i < |u| ==> u[i] != b[0]
    ensures InFirstOrder(u, lo, b)
  {
    forall i | lo <= i < |u| ensures u[i] in b && FirstAt(b, u[i]) == FirstAt(b[1..], u[i]) + 1 {
      assert u[i] in b[1..];
    }
  }

  /** Putting `b[0]` in front of elements `b` has later keeps them ordered
      by first position in `b`. */
  lemma OrderWithHead(u: seq<string>, lo: nat, b: seq<string>)
    requires b != [] && lo < |u| && u[lo] == b[0]
    requires InFirstOrder(u, lo + 1, b)
    requires forall i :: lo < i < |u| ==> u[i] != b[0]
    ensures InFirstOrder(u, lo, b)
  {
    assert FirstAt(b, u[lo]) == 0;
    forall j | lo < j < |u| ensures FirstAt(b, u[j]) > 0 {
      assert b[FirstAt(b, u[j])] == u[j];
    }
  }

  /** Adding `x` and then `y` adds the same columns in the same order as
      adding `x + y` at once. */
  lemma {:induction false} UnionOfConcat(a: seq<string>, x: seq<string>, y: seq<string>)
    ensures OrderedUnion(OrderedUnion(a, x), y) == OrderedUnion(a, x + y)
    decreases |x|
  {
    if x == [] {
      assert x + y == y;
    } else {
      assert (x + y)[0] == x[0] && (x + y)[1..] == x[1..] + y;
      if x[0] in a {
        UnionOfConcat(a, x[1..], y);
      } else {
        UnionOfConcat(a + [x[0]], x[1..], y);
      }
    }
  }

  /** Every record's keys, record after record. */
  function AllKeys(cands: seq<Listing>): seq<string> {
    if cands == [] then [] else Columns(cands[0]) + AllKeys(cands[1..])
  }

  /** Some candidate record has key `c`. */
  ghost predicate SomeRecordHas(cands: seq<Listing>, c: string) {
    exists k :: 0 <= k < |cands| && c in Columns(cands[k])
  }

  /** A key of some record is a key of the first record or of some later
      one. */
  lemma SomeRecordHasCons(cands: seq<Listing>)
    requires cands != []
    ensures forall c :: SomeRecordHas(cands, c) <==> c in Columns(cands[0]) || SomeRecordHas(cands[1..], c)
  {
    forall c ensures SomeRecordHas(cands, c) <==> c in Columns(cands[0]) || SomeRecordHas(cands[1..], c) {
      if SomeRecordHas(cands[1..], c) {
        var k :| 0 <= k < |cands| - 1 && c in Columns(cands[1..][k]);
        assert cands[k + 1] == cands[1..][k];
      }
      if SomeRecordHas(cands, c) {
        var k :| 0 <= k < |cands| && c in Columns(cands[k]);
        if k > 0 {
          assert cands[k] == cands[1..][k - 1];
        }
      }
    }
  }

  /** Keys met so far (`acc`) extended by the keys of `cands`, each key at its
      first appearance. */
  function ColumnsFrom(acc: seq<string>, cands: seq<Listing>): (cols: seq<string>)
    requires Distinct(acc)
    ensures |acc| <= |cols| && cols[..|acc|] == acc
    ensures forall c :: c in cols <==> c in acc || SomeRecordHas(cands, c)
    ensures Distinct(cols)
    ensures cols == OrderedUnion(acc, AllKeys(cands))
    decreases |cands|
  {
    if cands == [] then acc
    else
      var next := OrderedUnion(acc, Columns(cands[0]));
      var cols := ColumnsFrom(next, cands[1..]);
      SomeRecordHasCons(cands);
      PrefixOfPrefix(cols, |acc|, |next|);
      UnionOfConcat(acc, Columns(cands[0]), AllKeys(cands[1..]));
      cols
  }

  /** Column order of `DataFrame.from_dict(records, orient="index")`: every key
      of every record, each where it first appears. */
  function FrameColumns(cands: seq<Listing>): (cols: seq<string>)
    ensures forall c :: c in cols <==> SomeRecordHas(cands, c)
    ensures Distinct(cols)
    ensures cands != [] ==> |Columns(cands[0])| <= |cols| && cols[..|Columns(cands[0])|] == Columns(cands[0])
    ensures InFirstOrder(cols, 0, AllKeys(cands))
  {
    if cands == [] then []
    else
      var first := Columns(cands[0]);
      assert OrderedUnion([], first) == first by {
        UnionOfDistinctWithEmpty(first);
      }
      var cols := ColumnsFrom(first, cands[1..]);
      SomeRecordHasCons(cands);
      UnionOfConcat([], first, AllKeys(cands[1..]));
      assert cols == OrderedUnion([], AllKeys(cands));
      cols
  }

  /** Adding a duplicate-free column list to no columns keeps it as is. */
  lemma {:induction false} UnionOfDistinctWithEmpty(b: seq<string>)
    requires Distinct(b)
    ensures OrderedUnion([], b) == b
  {
    UnionAppendsDistinct([], b);
  }

  lemma {:induction false} UnionAppendsDistinct(a: seq<string>, b: seq<string>)
    requires Distinct(b) && forall x :: x in b ==> x !in a
    ensures OrderedUnion(a, b) == a + b
    decreases |b|
  {
    if b != [] {
      var a' := a + [b[0]];
      var b' := b[1..];
      DistinctTail(b);
      assert b[0] in b;
      assert OrderedUnion(a, b) == OrderedUnion(a', b');
      forall x | x in b' ensures x !in a' {
        assert x in b;
      }
      UnionAppendsDistinct(a', b');
      ShiftHead(a, b);
    }
  }

  lemma DistinctTail<T>(b: seq<T>)
    requires Distinct(b) && b != []
    ensures Distinct(b[1..]) && b[0] !in b[1..]
  {
    forall i, j | 0 <= i < j < |b| - 1 ensures b[1..][i] != b[1..][j] {
      assert b[1..][i] == b[i + 1] && b[1..][j] == b[j + 1];
    }
    assert forall j :: 0 <= j < |b| - 1 ==> b[1..][j] == b[j + 1];
  }

  /** The candidate frame has a `URL` column exactly when there is at least
      one candidate: `from_dict({})` has no columns at all. */
  lemma FrameHasUrlIffCandidates(cands: seq<Listing>)
    ensures UrlKey in FrameColumns(cands) <==> cands != []
  {
    if cands != [] {
      assert UrlKey in Columns(cands[0]);
    }
  }

  /** The existing frame has a `URL` column: the sheet has a record and its
      header names the column (`DataFrame([])` has no columns at all). */
  predicate HasUrlColumn(t: Table)
    ensures WellFormed(t) ==> (HasUrlColumn(t) <==> exists i :: 0 <= i < |t.rows| && UrlKey in t.rows[i])
  {
    assert WellFormed(t) && |t.rows| > 0 && UrlKey in t.header ==> UrlKey in t.rows[0];
    |t.rows| > 0 && UrlKey in t.header
  }

  /** The `URL` cells of `rows`. */
  function UrlColumn(rows: seq<map<string, string>>): (urls: set<string>)
    ensures forall u :: u in urls <==> exists i :: 0 <= i < |rows| && UrlKey in rows[i] && rows[i][UrlKey] == u
  {
    if rows == [] then {}
    else
      var last := rows[|rows| - 1];
      var front := rows[..|rows| - 1];
      assert forall i :: 0 <= i < |front| ==> front[i] == rows[i];
      UrlColumn(front) + (if UrlKey in last then {last[UrlKey]} else {})
  }

  /** A sheet of one record holding a URL has exactly that URL. */
  lemma SingleRecordUrls(row: map<string, string>)
    requires UrlKey in row
    ensures UrlColumn([row]) == {row[UrlKey]}
  {
    assert [row][..0] == [];
  }

  /** The values of the sheet's `URL` column. */
  function ExistingUrls(t: Table): set<string> {
    UrlColumn(t.rows)
  }

  /** What `fillna("")` leaves in column `c` of an existing record. */
  function ExistingCell(row: map<string, string>, c: string): string {
    if c in row then row[c] else ""
  }

  /** What `fillna("")` leaves in column `c` of a new record: its text, or ""
      where the record has no such key or holds `None`. */
  function FilledCell(l: Listing, c: string): string {
    var cells := Cells(l);
    if c in cells && cells[c].Some? then cells[c].value else ""
  }

  /** `row` is the filled form of new record `l` under `header`. */
  ghost predicate IsFilledRow(row: map<string, string>, l: Listing, header: seq<string>) {
    && (forall c :: c in row <==> c in header)
    && (forall c :: c in header && c in Cells(l) && Cells(l)[c].Some? ==> row[c] == Cells(l)[c].value)
    && (forall c :: c in header && (c !in Cells(l) || Cells(l)[c].None?) ==> row[c] == "")
  }

  /** `row` is the filled form of old record `before` under `header`: every
      cell it had is kept, every other column holds "". */
  ghost predicate IsKeptRow(row: map<string, string>, before: map<string, string>, header: seq<string>) {
    && (forall c :: c in row <==> c in header)
    && (forall c :: c in before && c in header ==> row[c] == before[c])
    && (forall c :: c !in before && c in header ==> row[c] == "")
  }

  /** A filled row under a header naming `URL` and `timestamp` holds the
      listing's URL and timestamp. */
  lemma FilledRowKeys(row: map<string, string>, l: Listing, header: seq<string>)
    requires IsFilledRow(row, l, header) && UrlKey in header && TimestampKey in header
    ensures UrlKey in row && TimestampKey in row
    ensures row[UrlKey] == l.url && row[TimestampKey] == l.timestamp
  {
    assert Cells(l)[UrlKey] == Some(l.url);
    assert Cells(l)[TimestampKey] == Some(l.timestamp);
  }

  /** A filled row under a header naming `URL` holds the listing's URL. */
  lemma FilledUrl(row: map<string, string>, l: Listing, header: seq<string>)
    requires IsFilledRow(row, l, header) && UrlKey in header
    ensures UrlKey in row && row[UrlKey] == l.url
  {
    assert Cells(l)[UrlKey] == Some(l.url);
  }

  /** A filled row holds an optional field's text, or "" where the listing
      lacks the field or holds `None`. */
  lemma FilledOptionalCells(row: map<string, string>, l: Listing, header: seq<string>)
    requires IsFilledRow(row, l, header)
    ensures SizeKey in header ==> row[SizeKey] == (if l.size.Text? then l.size.text else "")
    ensures EnergyKey in header ==> row[EnergyKey] == (if l.energyLabel.Text? then l.energyLabel.text else "")
  {
    var cells := Cells(l);
    if SizeKey in cells {
      assert cells[SizeKey] == CellValue(l.size);
    }
    if EnergyKey in cells {
      assert cells[EnergyKey] == CellValue(l.energyLabel);
    }
  }

  /** `t` is `store` with `added` appended: the old header is a prefix of the
      new one, the old records come first, each kept, and the added listings
      follow in order, each filled out to the new header. */
  ghost predicate IsAppendOf(t: Table, store: Table, added: seq<Listing>) {
    && |store.header| <= |t.header| && t.header[..|store.header|] == store.header
    && |t.rows| == |store.rows| + |added|
    && (forall i :: 0 <= i < |store.rows| ==> IsKeptRow(t.rows[i], store.rows[i], t.header))
    && (forall j :: 0 <= j < |added| ==> IsFilledRow(t.rows[|store.rows| + j], added[j], t.header))
  }

  /** The row an append adds for listing `j` is that listing filled out. */
  lemma AppendedRow(t: Table, store: Table, added: seq<Listing>, j: nat)
    requires IsAppendOf(t, store, added) && j < |added|
    ensures IsFilledRow(t.rows[|store.rows| + j], added[j], t.header)
  {
  }

  /** `row` holds `l`'s URL and timestamp. */
  ghost predicate CarriesKeys(row: map<string, string>, l: Listing) {
    && UrlKey in row && TimestampKey in row
    && row[UrlKey] == l.url && row[TimestampKey] == l.timestamp
  }

  /** The row an append adds for a listing carries that listing's URL and
      timestamp. */
  lemma AppendedRowsFrom(t: Table, store: Table, added: seq<Listing>)
    requires IsAppendOf(t, store, added) && UrlKey in t.header && TimestampKey in t.header
    ensures forall j :: 0 <= j < |added| ==> CarriesKeys(t.rows[|store.rows| + j], added[j])
  {
    forall j | 0 <= j < |added| ensures CarriesKeys(t.rows[|store.rows| + j], added[j]) {
      FilledRowKeys(t.rows[|store.rows| + j], added[j], t.header);
    }
  }

  /** Appending listings none of which has URL `url`, under columns naming
      `URL`, adds no row holding `url`. */
  lemma AppendAvoidsUrl(store: Table, frameCols: seq<string>, added: seq<Listing>, url: string)
    requires UrlKey in frameCols && TimestampKey in frameCols
    requires forall l :: l in added ==> l.url != url
    ensures var t := Append(store, frameCols, added);
            forall i :: |store.rows| <= i < |t.rows| ==> UrlKey in t.rows[i] && t.rows[i][UrlKey] != url
  {
    var t := Append(store, frameCols, added);
    AppendedRowsFrom(t, store, added);
    forall i | |store.rows| <= i < |t.rows| ensures UrlKey in t.rows[i] && t.rows[i][UrlKey] != url {
      var j := i - |store.rows|;
      assert CarriesKeys(t.rows[|store.rows| + j], added[j]);
      assert added[j] in added;
    }
  }

  /** Appending listings all stamped `stamp`, under columns naming
      `timestamp`, adds only rows holding `stamp`. */
  lemma AppendStamped(store: Table, frameCols: seq<string>, added: seq<Listing>, stamp: string)
    requires UrlKey in frameCols && TimestampKey in frameCols
    requires forall l :: l in added ==> l.timestamp == stamp
    ensures var t := Append(store, frameCols, added);
            forall i :: |store.rows| <= i < |t.rows| ==> TimestampKey in t.rows[i] && t.rows[i][TimestampKey] == stamp
  {
    var t := Append(store, frameCols, added);
    AppendedRowsFrom(t, store, added);
    forall i | |store.rows| <= i < |t.rows| ensures TimestampKey in t.rows[i] && t.rows[i][TimestampKey] == stamp {
      var j := i - |store.rows|;
      assert CarriesKeys(t.rows[|store.rows| + j], added[j]);
      assert added[j] in added;
    }
  }

  /** The table `sheet.update` writes: the existing records followed by the
      new ones, under the existing header extended by the candidate frame's
      unseen columns in the order the frame has them, with every missing cell
      filled with "". */
  function Append(store: Table, frameCols: seq<string>, newListings: seq<Listing>): (t: Table)
    ensures IsAppendOf(t, store, newListings)
    ensures forall c :: c in t.header <==> c in store.header || c in frameCols
    ensures NoneOfFrom(t.header, |store.header|, store.header)
    ensures InFirstOrder(t.header, |store.header|, frameCols)
    ensures Distinct(store.header) && Distinct(frameCols) ==> Distinct(t.header)
  {
    var header := OrderedUnion(store.header, frameCols);
    var kept := seq(|store.rows|, i requires 0 <= i < |store.rows| => KeptRow(store.rows[i], header));
    var added := seq(|newListings|, j requires 0 <= j < |newListings| => FilledRow(newListings[j], header));
    var t := Table(header, kept + added);
    assert forall i :: 0 <= i < |store.rows| ==> t.rows[i] == kept[i];
    assert forall j :: 0 <= j < |newListings| ==> t.rows[|store.rows| + j] == added[j];
    t
  }

  /** An old record as `concat` and `fillna("")` leave it under `header`. */
  function KeptRow(before: map<string, string>, header: seq<string>): (row: map<string, string>)
    ensures IsKeptRow(row, before, header)
  {
    map c | c in header :: ExistingCell(before, c)
  }

  /** A new record as `concat` and `fillna("")` leave it under `header`. */
  function FilledRow(l: Listing, header: seq<string>): (row: map<string, string>)
    ensures IsFilledRow(row, l, header)
  {
    map c | c in header :: FilledCell(l, c)
  }

  /** Every record's keys are exactly the header's columns: the shape
      `get_all_records()` returns, one dict per row keyed by the header. */
  ghost predicate WellFormed(t: Table) {
    forall i :: 0 <= i < |t.rows| ==> forall c :: c in t.rows[i] <==> c in t.header
  }

  /** Whatever table the append starts from, the table it writes has every
      record keyed by the written header. */
  lemma AppendIsWellFormed(store: Table, frameCols: seq<string>, added: seq<Listing>)
    ensures WellFormed(Append(store, frameCols, added))
  {
    var t := Append(store, frameCols, added);
    forall i | 0 <= i < |t.rows| ensures forall c :: c in t.rows[i] <==> c in t.header {
      if i < |store.rows| {
        assert IsKeptRow(t.rows[i], store.rows[i], t.header);
      } else {
        AppendedRow(t, store, added, i - |store.rows|);
      }
    }
  }

  /** On a well-formed sheet the header and the records agree: when the
      header names `URL`, every record holds a URL and the column's values
      are exactly those cells. */
  lemma WellFormedUrls(t: Table)
    requires WellFormed(t) && UrlKey in t.header
    ensures forall i :: 0 <= i < |t.rows| ==> UrlKey in t.rows[i]
    ensures ExistingUrls(t) == set i | 0 <= i < |t.rows| :: t.rows[i][UrlKey]
  {
    assert forall i :: 0 <= i < |t.rows| ==> UrlKey in t.rows[i];
  }

  /** Every URL the sheet held, and every new listing's URL, is in the
      written sheet's `URL` column, and the written sheet has that column. */
  lemma AppendKeepsUrls(store: Table, frameCols: seq<string>, newListings: seq<Listing>)
    requires UrlKey in frameCols
    ensures var t := Append(store, frameCols, newListings);
            && (|store.rows| + |newListings| > 0 ==> HasUrlColumn(t))
            && ExistingUrls(store) <= ExistingUrls(t)
            && forall l :: l in newListings ==> l.url in ExistingUrls(t)
  {
    var t := Append(store, frameCols, newListings);
    forall u | u in ExistingUrls(store) ensures u in ExistingUrls(t) {
      var i :| 0 <= i < |store.rows| && UrlKey in store.rows[i] && store.rows[i][UrlKey] == u;
      assert IsKeptRow(t.rows[i], store.rows[i], t.header);
      assert t.rows[i][UrlKey] == u;
    }
    forall l | l in newListings ensures l.url in ExistingUrls(t) {
      var i :| 0 <= i < |newListings| && newListings[i] == l;
      assert IsFilledRow(t.rows[|store.rows| + i], l, t.header);
      assert t.rows[|store.rows| + i][UrlKey] == l.url;
    }
  }

  /** Reading a written new record back: the mandatory fields come back as
      they were, an optional field the record lacks or holds as `None` comes
      back as "" and never as an absent cell. */
  lemma AppendReadBack(store: Table, frameCols: seq<string>, newListings: seq<Listing>, i: nat)
    requires UrlKey in frameCols && i < |newListings|
    ensures var t := Append(store, frameCols, newListings);
            var row := t.rows[|store.rows| + i];
            && row[UrlKey] == newListings[i].url
            && (SizeKey in t.header ==>
                  row[SizeKey] == (if newListings[i].size.Text? then newListings[i].size.text else ""))
            && (EnergyKey in t.header ==>
                  row[EnergyKey] == (if newListings[i].energyLabel.Text? then newListings[i].energyLabel.text else ""))
  {
    var t := Append(store, frameCols, newListings);
    AppendedRow(t, store, newListings, i);
    FilledUrl(t.rows[|store.rows| + i], newListings[i], t.header);
    FilledOptionalCells(t.rows[|store.rows| + i], newListings[i], t.header);
  }
}

=== FILE: text.dfy ===
/** The handful of Python string operations the scrapers apply to scraped text:
    `str.strip()`, the `in` substring test, `str.split(sep)` and the decimal
    rendering of an `int` inside an f-string. */
module Text {
  import opened Wrappers
  import opened Seqs

  /** The characters Python's `str.isspace()` accepts, which is the set
      `str.strip()` removes from both ends. */
  predicate IsSpace(c: char) {
    || ('\U{9}' <= c <= '\U{D}')
    || ('\U{1C}' <= c <= '\U{20}')
    || c == '\U{85}'
    || c == '\U{A0}'
    || c == '\U{1680}'
    || ('\U{2000}' <= c <= '\U{200A}')
    || c == '\U{2028}'
    || c == '\U{2029}'
    || c == '\U{202F}'
    || c == '\U{205F}'
    || c == '\U{3000}'
  }

  /** `s` with its leading whitespace removed. */
  function TrimStart(s: string): (r: string)
    ensures |r| <= |s| && r == s[|s| - |r|..]
    ensures forall i :: 0 <= i < |s| - |r| ==> IsSpace(s[i])
    ensures r == [] || !IsSpace(r[0])
  {
    if |s| > 0 && IsSpace(s[0]) then TrimStart(s[1..]) else s
  }

  /** `s` with its trailing whitespace removed. */
  function TrimEnd(s: string): (r: string)
    ensures |r| <= |s| && r == s[..|r|]
    ensures forall i :: |r| <= i < |s| ==> IsSpace(s[i])
    ensures r == [] || !IsSpace(r[|r| - 1])
  {
    if |s| > 0 && IsSpace(s[|s| - 1]) then TrimEnd(s[..|s| - 1]) else s
  }

  /** `r` sits in `s` at offset `lo`, and everything of `s` outside that
      window is whitespace. */
  ghost predicate StripWindow(r: string, s: string, lo: int) {
    && 0 <= lo && lo + |r| <= |s| && r == s[lo..lo + |r|]
    && (forall i :: 0 <= i < lo ==> IsSpace(s[i]))
    && (forall i :: lo + |r| <= i < |s| ==> IsSpace(s[i]))
  }

  /** `r` is what `s.strip()` leaves: a contiguous slice of `s` such that
      everything cut off on either side is whitespace. */
  ghost predicate IsStripOf(r: string, s: string) {
    exists lo :: StripWindow(r, s, lo)
  }

  /** Python's `str.strip()` with no argument. */
  function Strip(s: string): (r: string)
    ensures IsStripOf(r, s)
    ensures r == [] || (!IsSpace(r[0]) && !IsSpace(r[|r| - 1]))
  {
    TrimsFormWindow(s);
    TrimEnd(TrimStart(s))
  }

  /** Trimming the front and then the back leaves a window of `s` with only
      whitespace around it. */
  lemma TrimsFormWindow(s: string)
    ensures StripWindow(TrimEnd(TrimStart(s)), s, |s| - |TrimStart(s)|)
  {
    var t := TrimStart(s);
    var r := TrimEnd(t);
    var lo := |s| - |t|;
    assert t == s[lo..];
    assert r == t[..|r|];
    SliceOfSlice(s, lo, |r|);
    assert forall i :: 0 <= i < lo ==> IsSpace(s[i]);
    forall i | lo + |r| <= i < |s| ensures IsSpace(s[i]) {
      assert s[i] == t[i - lo];
    }
    assert StripWindow(r, s, lo);
  }

  /** `r` is a window of `s` with only whitespace cut off and no whitespace
      left at either end. */
  ghost predicate IsStripped(r: string, s: string) {
    IsStripOf(r, s) && (r == [] || (!IsSpace(r[0]) && !IsSpace(r[|r| - 1])))
  }

  /** There is only one such window, so `Strip` is determined by its
      contract: whatever meets it is `s.strip()`. */
  lemma StripUnique(r: string, s: string)
    requires IsStripped(r, s)
    ensures r == Strip(s)
  {
    var t := Strip(s);
    var lo :| StripWindow(r, s, lo);
    var lo2 :| StripWindow(t, s, lo2);
    if r == [] {
      assert forall i :: 0 <= i < |s| ==> IsSpace(s[i]);
    } else {
      assert s[lo] == r[0] && s[lo + |r| - 1] == r[|r| - 1];
      assert t != [] ==> s[lo2] == t[0] && s[lo2 + |t| - 1] == t[|t| - 1];
      assert lo == lo2 && |r| == |t|;
    }
  }

  /** `p` is a prefix of `s`. */
  predicate StartsWith(s: string, p: string) {
    |p| <= |s| && s[..|p|] == p
  }

  /** `sub` occurs in `s` starting at position `i`. */
  ghost predicate OccursAt(s: string, sub: string, i: int) {
    0 <= i && i + |sub| <= |s| && s[i..i + |sub|] == sub
  }

  /** Python's `sub in s`. */
  function Contains(s: string, sub: string): (b: bool)
    ensures b <==> exists i :: OccursAt(s, sub, i)
    decreases |s|
  {
    if StartsWith(s, sub) then
      assert OccursAt(s, sub, 0);
      true
    else if |s| == 0 then
      false
    else
      var b := Contains(s[1..], sub);
      assert b ==> exists i :: OccursAt(s, sub, i) by {
        if b {
          var j :| OccursAt(s[1..], sub, j);
          assert s[1..][j..j + |sub|] == s[j + 1..j + 1 + |sub|];
          assert OccursAt(s, sub, j + 1);
        }
      }
      assert (exists i :: OccursAt(s, sub, i)) ==> b by {
        if exists i :: OccursAt(s, sub, i) {
          var i :| OccursAt(s, sub, i);
          assert i != 0;
          assert s[1..][i - 1..i - 1 + |sub|] == s[i..i + |sub|];
          assert OccursAt(s[1..], sub, i - 1);
        }
      }
      b
  }

  /** Position of the first `c` in `s`, if any. */
  function IndexOf(s: string, c: char): (r: Option<nat>)
    ensures r.None? <==> c !in s
    ensures r.Some? ==> r.value < |s| && s[r.value] == c
    ensures r.Some? ==> forall k :: 0 <= k < r.value ==> s[k] != c
  {
    if |s| == 0 then None
    else if s[0] == c then Some(0)
    else match IndexOf(s[1..], c)
      case None => None
      case Some(i) =>
        Some(i + 1)
  }

  /** Python's `s.split(sep)` for a one-character separator: the maximal
      separator-free pieces, so `"a::b"` splits into `["a", "", "b"]`. */
  function Split(s: string, sep: char): (parts: seq<string>)
    ensures |parts| >= 1
    ensures forall k :: 0 <= k < |parts| ==> sep !in parts[k]
    decreases |s|
  {
    match IndexOf(s, sep)
    case None => [s]
    case Some(i) => [s[..i]] + Split(s[i + 1..], sep)
  }

  /** Python's `sep.join(parts)`. */
  function Join(parts: seq<string>, sep: char): string {
    if |parts| == 0 then ""
    else if |parts| == 1 then parts[0]
    else parts[0] + [sep] + Join(parts[1..], sep)
  }

  /** Splitting loses nothing: joining the pieces back gives the input. */
  lemma {:induction false} JoinSplit(s: string, sep: char)
    ensures Join(Split(s, sep), sep) == s
    decreases |s|
  {
    if sep in s {
      var i := IndexOf(s, sep).value;
      var rest := Split(s[i + 1..], sep);
      var parts := [s[..i]] + rest;
      assert Split(s, sep) == parts;
      JoinSplit(s[i + 1..], sep);
      ConsParts(s[..i], rest);
      assert Join(parts, sep) == s[..i] + [sep] + Join(rest, sep);
      AroundIndex(s, i);
    }
  }

  /** A string splits into more than one piece exactly when it contains the
      separator, so `split(":")[1]` raises exactly on colon-free text. */
  lemma SplitHasMoreThanOnePiece(s: string, sep: char)
    ensures |Split(s, sep)| >= 2 <==> sep in s
  {
    match IndexOf(s, sep)
    case None =>
      assert Split(s, sep) == [s];
    case Some(i) =>
      assert Split(s, sep) == [s[..i]] + Split(s[i + 1..], sep);
  }

  /** The second `sep`-piece of a string holding `sep` is the text strictly
      between its first `sep` and the next one (or the end of the string). */
  lemma SecondPiece(s: string, sep: char)
    requires sep in s
    ensures var i := IndexOf(s, sep).value;
            var piece := Split(s, sep)[1];
            && i + 1 + |piece| <= |s|
            && piece == s[i + 1..i + 1 + |piece|]
            && sep !in piece
            && (i + 1 + |piece| == |s| || s[i + 1 + |piece|] == sep)
  {
    var i := IndexOf(s, sep).value;
    var rest := s[i + 1..];
    var tail := Split(rest, sep);
    assert Split(s, sep) == [s[..i]] + tail;
    ConsParts(s[..i], tail);
    FirstPiece(rest, sep);
    SliceOfSlice(s, i + 1, |tail[0]|);
  }

  /** The first piece of a split runs up to the first separator, or to the
      end of the string when there is none. */
  lemma FirstPiece(s: string, sep: char)
    ensures var p := Split(s, sep)[0];
            |p| <= |s| && p == s[..|p|] && (|p| == |s| || s[|p|] == sep)
  {
    match IndexOf(s, sep)
    case None =>
      assert Split(s, sep) == [s];
    case Some(i) =>
      assert Split(s, sep) == [s[..i]] + Split(s[i + 1..], sep);
  }

  /** Joining separator-free pieces and splitting again recovers the pieces. */
  lemma {:induction false} SplitJoin(parts: seq<string>, sep: char)
    requires |parts| >= 1
    requires forall k :: 0 <= k < |parts| ==> sep !in parts[k]
    ensures Split(Join(parts, sep), sep) == parts
  {
    var s := Join(parts, sep);
    if |parts| == 1 {
      assert IndexOf(s, sep).None?;
    } else {
      var p := parts[0];
      var rest := Join(parts[1..], sep);
      assert s == p + [sep] + rest;
      FirstSeparator(p, sep, rest);
      SuffixAfter(p, sep, rest);
      assert Split(s, sep) == [p] + Split(rest, sep);
      SplitJoin(parts[1..], sep);
      assert parts == [p] + parts[1..];
    }
  }

  /** In `p + [sep] + rest` with `sep` not in `p`, the first separator sits
      right after `p`. */
  lemma FirstSeparator(p: string, sep: char, rest: string)
    requires sep !in p
    ensures IndexOf(p + [sep] + rest, sep) == Some(|p|)
  {
    var s := p + [sep] + rest;
    assert s[|p|] == sep;
    assert forall k :: 0 <= k < |p| ==> s[k] == p[k];
  }

  predicate IsDigit(c: char) {
    '0' <= c <= '9'
  }

  predicate AllDigits(s: string) {
    forall i :: 0 <= i < |s| ==> IsDigit(s[i])
  }

  function DigitChar(d: nat): (c: char)
    requires d < 10
    ensures IsDigit(c) && c as int - '0' as int == d
  {
    ('0' as int + d) as char
  }

  /** Python's `str(n)` / f-string rendering of a non-negative `int`: decimal
      digits with no leading zero. */
  function NatToString(n: nat): (s: string)
    ensures |s| >= 1 && AllDigits(s)
    ensures s[0] == '0' ==> s == "0"
    decreases n
  {
    if n < 10 then [DigitChar(n)] else NatToString(n / 10) + [DigitChar(n % 10)]
  }

  /** The number a string of decimal digits denotes. */
  function DigitsValue(s: string): nat
    requires AllDigits(s)
  {
    if s == [] then 0 else 10 * DigitsValue(s[..|s| - 1]) + (s[|s| - 1] as int - '0' as int)
  }

  /** Reading the decimal rendering back gives the number. */
  lemma {:induction false} NatToStringRoundTrip(n: nat)
    ensures DigitsValue(NatToString(n)) == n
    decreases n
  {
    if n >= 10 {
      NatToStringRoundTrip(n / 10);
      var s := NatToString(n);
      assert s[..|s| - 1] == NatToString(n / 10);
    }
  }

  /** The longest prefix of `s` made of decimal digits. */
  function LeadingDigits(s: string): (d: string)
    ensures |d| <= |s| && d == s[..|d|]
    ensures AllDigits(d)
    ensures |d| == |s| || !IsDigit(s[|d|])
  {
    if |s| > 0 && IsDigit(s[0]) then [s[0]] + LeadingDigits(s[1..]) else []
  }

  /** A digit string followed by a non-digit is exactly the leading digits. */
  lemma {:induction false} LeadingDigitsOf(d: string, rest: string)
    requires AllDigits(d)
    requires rest == [] || !IsDigit(rest[0])
    ensures LeadingDigits(d + rest) == d
  {
    if d != [] {
      assert (d + rest)[1..] == d[1..] + rest;
      LeadingDigitsOf(d[1..], rest);
      assert d == [d[0]] + d[1..];
    }
  }
}

=== FILE: wrappers.dfy ===
/** Failure-compatible wrappers used across the model. */
module Wrappers {

  /** A value that may be absent: Python's `None`. */
  datatype Option<+T> = None | Some(value: T)

  /** The outcome of a step that either produces a value or raises. */
  datatype Result<+T, +E> = Ok(value: T) | Err(error: E) {

    predicate IsFailure() {
      Err?
    }

    function PropagateFailure<U>(): Result<U, E>
      requires Err?
    {
      Err(error)
    }

    function Extract(): T
      requires Ok?
    {
      value
    }
  }
}
